=== FILE: README.md ===
# Student roster and course-leader login — Dafny model

This project models the decision logic of a small school roster web
application. An administrator keeps the master records of students
(identity, school, enrolled course slots, desired course). Course leaders
sign in for one course and record attendance and two summary fields
("AV", "SV"). The model covers:

- the student API handlers — list and create, with validation, the
  administrator gate, appending, and the course-limit gate before the single
  write (`StudentsRoute`);
- the login handler's decision for administrators and course leaders
  (`LoginRoute`), including the `encodeURIComponent` redirect target and its
  decoder (`Uri`);
- the administrator dashboard: empty draft, course catalog, single-field and
  single-slot edits, the "changed"/reset logic of a table row, and the list
  updates after create, save and delete (`AdminDashboard`, `Catalog`);
- the course-leader dashboard: row edit buffers, the dirty flag, the save
  body and both save outcomes (`CourseDashboard`);
- the login form: role switching, course options, request body and the
  submit condition (`LoginForm`).

Shared pieces: `Wrappers` (Option/Result), `Text` (JavaScript `trim`, with
the full ECMAScript white-space and line-terminator set), and `Records` (the
student record, the session identity, field access by name, and the
`JSON.stringify` comparison the dashboards use, modelled as a token list
with a parser that inverts it).

Everything is pure functions over immutable datatypes and sequences. Every
server reply and every storage result is an input to the transition it
triggers. A handler's effect is an `Exchange`: whether it read the roster,
the roster it wrote (if any), and its reply.

A few behaviours of the code are worth stating plainly:
- A refused creation reports the message of the first validation issue: the
  German text from the schema, or zod's generic "Required" when a key is
  missing.
- When `assertCourseLimit` throws, the handler does not catch it. The model
  records that as `LimitExceeded`, with nothing written.
- A course leader can sign in with an omitted or empty password. The form
  leaves an empty password out of the request, and the handler only checks
  a password that is present (`LoginForm.EmptyPasswordCourseLogin`).

## Model

| member | source | states |
|---|---|---|
| Text.Trim | webapp/src/components/AdminDashboard.tsx:34-39 | the result is a contiguous middle part of the input with only white space removed at either end, and neither end of the result is white space |
| Text.TrimIdempotent | webapp/src/app/api/students/route.ts:65 | trimming an already trimmed value changes nothing, so the handler's second trim of `desiredCourse` is harmless |
| Text.TrimEmptyIffBlank | webapp/src/app/api/auth/login/route.ts:40-41 | a value trims to the empty string exactly when it consists only of white space |
| Records.WithText | webapp/src/components/AdminDashboard.tsx:66-71 | setting one scalar field changes that field only; every other scalar field and both arrays keep their values |
| Records.WithSlot | webapp/src/components/AdminDashboard.tsx:73-86 | setting one array slot changes only position `index` of that array; its length, the other array and every scalar field are unchanged |
| Records.Serialize | webapp/src/components/AdminDashboard.tsx:63 | parsing the serialisation of a student gives back that student |
| Records.SerializeInjective | webapp/src/components/AdminDashboard.tsx:62-64 | two students serialise identically exactly when they are equal |
| Records.ArrayTokensInjective | webapp/src/components/CourseDashboard.tsx:140-142 | two attendance arrays serialise identically exactly when they are equal |
| Catalog.Collect | webapp/src/components/AdminDashboard.tsx:31-41 | the collected list has no duplicates, and a name is in it exactly when it was already collected or some student's slot or desired course trims to it and it is non-blank |
| Catalog.SortBy | webapp/src/components/AdminDashboard.tsx:42 | the output is sorted by the comparison, has the same length as the input and holds the same elements |
| Catalog.ComputeCourses | webapp/src/components/AdminDashboard.tsx:30-43 | the course list is sorted and duplicate-free, and it contains `x` exactly when some student has a slot or desired course that trims to the non-blank `x` |
| Catalog.SortedUnique | webapp/src/components/AdminDashboard.tsx:42 | two lists sorted by a strict total order that hold the same elements are identical |
| Catalog.CatalogDeterminedByReferences | webapp/src/components/AdminDashboard.tsx:30-43 | rosters that reference the same course names yield the same course list |
| Catalog.CatalogIgnoresRosterOrder | webapp/src/components/AdminDashboard.tsx:30-43 | reordering the roster does not change the course list |
| Catalog.CatalogOfAppend | webapp/src/components/AdminDashboard.tsx:30-43 | appending a student adds exactly the courses that student mentions |
| Catalog.AddCourse | webapp/src/components/AdminDashboard.tsx:34-36 | the collected list stays duplicate-free and gains exactly the trimmed name when it is non-blank |
| Catalog.AddCourses | webapp/src/components/AdminDashboard.tsx:33-37 | the collected list stays duplicate-free and gains exactly the non-blank trimmed names of the slots |
| Catalog.Insert | webapp/src/components/AdminDashboard.tsx:42 | inserting a new name into a sorted list keeps it sorted, adds one element and adds exactly that name |
| StudentsRoute.RequiredText | webapp/src/app/api/students/route.ts:15-19 | a required field passes exactly when it is present and non-blank, and then yields its trimmed value; otherwise it yields the field's issue message |
| StudentsRoute.BoundedArray | webapp/src/app/api/students/route.ts:21-22 | an optional array passes exactly when it is absent or has at most six elements, and is then kept as given |
| StudentsRoute.SafeParse | webapp/src/app/api/students/route.ts:44-53 | parsing fails exactly when the schema finds an issue, and it then reports the first issue in schema order |
| StudentsRoute.SafeParseValues | webapp/src/app/api/students/route.ts:14-25 | after a successful parse the five required fields are trimmed and non-empty, `desiredCourse` is trimmed (empty when absent), arrays have at most six elements, and `av`/`sv` are as given |
| StudentsRoute.NewStudent | webapp/src/app/api/students/route.ts:58-70 | the new record has the fresh id and the parsed required fields; its courses and attendance are the normalised parsed arrays; AV/SV are as given (empty when absent); its desired course is trimmed, and a desired course that was already trimmed is kept as it is |
| StudentsRoute.Create | webapp/src/app/api/students/route.ts:37-77 | a non-admin is refused with 403 and an invalid payload with 400 and the first issue, both without reading or writing; for an admin with a valid payload the roster is read, and it is written exactly when the limit check passes on the stored roster with the new record appended; a write is that roster, with exactly one record (carrying the fresh id) appended, and it is answered `Created`; a failed limit check writes nothing and answers `LimitExceeded`; `Created` is answered exactly when something is written |
| StudentsRoute.CreatedRecord | webapp/src/app/api/students/route.ts:58-70 | the created record holds the trimmed required fields, the trimmed desired course (or empty), the normalised arrays, and `av`/`sv` defaulting to empty |
| StudentsRoute.CreateKeepsIdsUnique | webapp/src/app/api/students/route.ts:58-72 | if the stored roster has distinct ids, so does the written one |
| StudentsRoute.List | webapp/src/app/api/students/route.ts:27-35 | the roster is read and returned exactly when a user is signed in; an anonymous caller gets 401 without a read; nothing is ever written |
| LoginRoute.Login | webapp/src/app/api/auth/login/route.ts:12-74 | an unknown role gets 400; an admin succeeds exactly with the admin password; a blank course is refused before the password is looked at; a non-empty wrong course password is refused; an unlisted course is refused unless the catalog is empty; success stores the admin or the trimmed course in the session; every refusal leaves the session unchanged |
| LoginRoute.CourseRedirectDecodes | webapp/src/app/api/auth/login/route.ts:68-73 | a course leader's session holds a non-blank trimmed course, and the redirect path segment decodes back to exactly that course |
| Uri.EncodeComponent | webapp/src/app/api/auth/login/route.ts:72 | text made only of unreserved characters comes back unchanged, and the encoded text consists only of unreserved characters, `%` and hexadecimal digits |
| Uri.EncodeOneChar | webapp/src/app/api/auth/login/route.ts:72 | an unreserved character is kept; any other character becomes its UTF-8 bytes, the `k`-th byte written as `%` and two upper-case hexadecimal digits |
| Uri.EncodeAppend | webapp/src/app/api/auth/login/route.ts:72 | `encodeURIComponent` works character by character: the encoding of a concatenation is the concatenation of the encodings |
| Uri.EncodeWord | webapp/src/app/api/auth/login/route.ts:72 | the course name "Mathe" is redirected unchanged |
| Uri.EncodeSpace | webapp/src/app/api/auth/login/route.ts:72 | a space is encoded as `%20` |
| Uri.EncodeUmlaut | webapp/src/app/api/auth/login/route.ts:72 | `ä` is encoded as `%C3%A4` |
| Uri.Escape | webapp/src/app/api/auth/login/route.ts:72 | an escaped byte is `%`, its high and then its low hexadecimal digit, both upper case |
| Uri.DecodeEncode | webapp/src/app/api/auth/login/route.ts:72 | decoding an encoded string gives the original string back |
| Uri.EncodeInjective | webapp/src/app/api/auth/login/route.ts:72 | distinct course names have distinct encodings |
| Uri.DecodeComponent | webapp/src/app/api/auth/login/route.ts:72 | `decodeURIComponent`, which the course page (`webapp/src/app/courses/[course]/page.tsx`, line 23) applies to the path segment encoded here: text without `%` comes back unchanged and decoding never lengthens; it decodes literal characters and complete `%XX` UTF-8 sequences, and yields nothing (the URIError) otherwise |
| Uri.DecodeRejectsBadEscape | webapp/src/app/api/auth/login/route.ts:72 | for every text: a `%` anywhere that is not followed by two hexadecimal digits makes decoding fail |
| Uri.DecodeRejectsBadSequence | webapp/src/app/api/auth/login/route.ts:72 | a continuation byte in lead position (`%80`), a truncated sequence (`%C3`) and a bad continuation byte (`%C3%28`) make decoding fail |
| Uri.DecodeRejectsOverlong | webapp/src/app/api/auth/login/route.ts:72 | an overlong encoding (`%C0%80`) makes decoding fail |
| Uri.DecodeRejectsSurrogate | webapp/src/app/api/auth/login/route.ts:72 | an encoded surrogate (`%ED%A0%80`) makes decoding fail |
| Uri.DecodeRejectsBeyondUnicode | webapp/src/app/api/auth/login/route.ts:72 | a value above U+10FFFF (`%F4%90%80%80`) makes decoding fail |
| Uri.DecodeTwoByteEscape | webapp/src/app/api/auth/login/route.ts:72 | a well-formed two-byte sequence (`%C3%A4`) decodes to its character (`ä`) |
| LoginForm.FirstCourse | webapp/src/components/LoginForm.tsx:18 | the first known course, or empty when no course is known |
| LoginForm.InitialState | webapp/src/components/LoginForm.tsx:16-20 | the form starts in the administrator role, with an empty password, no error, not loading, and the first known course selected |
| LoginForm.ChangeRole | webapp/src/components/LoginForm.tsx:22-32 | any role change clears the password and the error; switching to admin selects the first known course (or empty); switching to course leader fills an empty course with the first known one if there is one and otherwise keeps the course |
| LoginForm.CourseOptions | webapp/src/components/LoginForm.tsx:34-39 | a non-blank course that is not among the known ones is put in front of them; otherwise the options are the known courses |
| LoginForm.CourseOptionsOfferSelection | webapp/src/components/LoginForm.tsx:34-39 | a non-blank selected course is always among the options, and the options contain no duplicates when the known courses contain none |
| LoginForm.Payload | webapp/src/components/LoginForm.tsx:46-56 | the request always has the role, has a password exactly when it is non-empty, and has the course exactly for the course-leader role |
| LoginForm.StartSubmit | webapp/src/components/LoginForm.tsx:43-44 | submitting sets loading and clears the error without touching the entered values |
| LoginForm.SubmitFailed | webapp/src/components/LoginForm.tsx:66-71 | a refused login shows the server's message (or a fallback), stops loading and keeps the entered values |
| LoginForm.SubmitDisabled | webapp/src/components/LoginForm.tsx:154 | the submit button is disabled exactly while loading or when the request would carry an empty course |
| LoginForm.CourseRoleCanSubmit | webapp/src/components/LoginForm.tsx:154 | after switching to course leader with non-empty known courses, or with a course already chosen, the form can be submitted when it is not loading |
| LoginForm.PayloadPassesSchema | webapp/src/components/LoginForm.tsx:46-56 | the form's request always has a role the login schema accepts, and the admin request carries no course |
| LoginForm.EmptyPasswordCourseLogin | webapp/src/components/LoginForm.tsx:50-56 | a course leader with an empty password and a listed non-blank course is signed in for the trimmed course |
| AdminDashboard.EmptyDraft | webapp/src/components/AdminDashboard.tsx:15-28 | the empty draft has exactly six empty course slots, six empty attendance slots, and every scalar field empty |
| AdminDashboard.DraftPayload | webapp/src/components/AdminDashboard.tsx:274-278 | the create handler accepts the submitted draft exactly when its five required fields are not blank and each array has at most six slots, and then reads back the draft's own values: the six text fields trimmed, both arrays, AV and SV as they are |
| AdminDashboard.EmptyDraftRefused | webapp/src/components/AdminDashboard.tsx:15-28 | submitting the empty draft is refused with the first-name message |
| AdminDashboard.ReplaceById | webapp/src/components/AdminDashboard.tsx:315-317 | length and order are kept; entries with the saved id become the returned record and all others are unchanged |
| AdminDashboard.RemoveById | webapp/src/components/AdminDashboard.tsx:328-330 | exactly the entries with the id are removed (the length drops by their count), and the remaining entries keep their order |
| AdminDashboard.RemoveShrinksCatalog | webapp/src/components/AdminDashboard.tsx:328-330 | a course referenced after a removal was referenced before it |
| AdminDashboard.InitialDashboard | webapp/src/components/AdminDashboard.tsx:231-237 | the dashboard starts with the given students, the empty draft, no feedback and not submitting |
| AdminDashboard.UpdateDraft | webapp/src/components/AdminDashboard.tsx:243-248 | only the named draft field changes; the list and the flags are unchanged |
| AdminDashboard.UpdateDraftArray | webapp/src/components/AdminDashboard.tsx:250-263 | only position `index` of the named draft array changes; its length, the other array, the scalar fields, the list and the flags are unchanged |
| AdminDashboard.StartCreate | webapp/src/components/AdminDashboard.tsx:270-272 | submitting sets the flag and clears the feedback, keeping list and draft |
| AdminDashboard.CreateSucceeded | webapp/src/components/AdminDashboard.tsx:292-299 | the created student is appended at the end of the list and the draft is reset to empty |
| AdminDashboard.CreateFailed | webapp/src/components/AdminDashboard.tsx:280-290 | a refused creation keeps the list and the draft and shows the server's error or the fallback |
| AdminDashboard.SaveSucceeded | webapp/src/components/AdminDashboard.tsx:302-321 | a successful save replaces exactly the entries with the saved id; the length, the order and every other entry are preserved |
| AdminDashboard.DeleteFinished | webapp/src/components/AdminDashboard.tsx:323-333 | a successful delete removes exactly the entries with the id (the length drops by their count) and keeps the rest in order; a failed delete changes nothing |
| AdminDashboard.SaveKeepsIdsUnique | webapp/src/components/AdminDashboard.tsx:315-317 | replacing by id with a record of the same id keeps ids unique |
| AdminDashboard.CreateExtendsCourses | webapp/src/components/AdminDashboard.tsx:239 | after a creation the displayed course list holds the previous courses plus exactly those the new student mentions |
| AdminDashboard.NewRow | webapp/src/components/AdminDashboard.tsx:54-56 | a new row holds the given student as both the stored record and the draft, so it is not changed; it is not saving and has no message |
| AdminDashboard.Changed | webapp/src/components/AdminDashboard.tsx:62-64 | a row is changed exactly when its draft differs from the stored student |
| AdminDashboard.EditField | webapp/src/components/AdminDashboard.tsx:66-71 | only the named draft field changes; the id, the arrays, the stored student and the row status are unchanged |
| AdminDashboard.EditSlot | webapp/src/components/AdminDashboard.tsx:73-86 | only position `index` of the named draft array changes; its length, the other array, the scalar fields, the stored student and the row status are unchanged |
| AdminDashboard.EditFieldChanges | webapp/src/components/AdminDashboard.tsx:62-71 | starting from an unchanged row, one field edit makes the row changed exactly when the new value differs from the stored value |
| AdminDashboard.Reset | webapp/src/components/AdminDashboard.tsx:107-110 | reset makes the draft equal the stored student again, so the row is no longer changed, and clears the message |
| AdminDashboard.SaveEnabledIffEdited | webapp/src/components/AdminDashboard.tsx:195-208 | save and reset are enabled exactly for a row whose draft differs from the stored student and that is not saving; starting a save or resetting disables both |
| AdminDashboard.StartRowSave | webapp/src/components/AdminDashboard.tsx:88-90 | saving sets the flag and clears the message, keeping the draft |
| AdminDashboard.FinishRowSave | webapp/src/components/AdminDashboard.tsx:91-95 | the save ends with the flag cleared and the draft kept; only a failure sets an error message |
| AdminDashboard.Receive | webapp/src/components/AdminDashboard.tsx:58-60 | when the row receives a new student, the draft follows it and the row is not changed |
| CourseDashboard.Dirty | webapp/src/components/CourseDashboard.tsx:140-144 | a row is dirty exactly when its attendance buffer, AV or SV differs from the stored student's |
| CourseDashboard.FreshRow | webapp/src/components/CourseDashboard.tsx:32-39 | a fresh row holds the student, is not dirty, not saving and has no message |
| CourseDashboard.InitialRows | webapp/src/components/CourseDashboard.tsx:31-40 | there is one row per student, in order, and no row starts dirty |
| CourseDashboard.EditRow | webapp/src/components/CourseDashboard.tsx:54-69 | an attendance edit changes only that index of the buffer and keeps its length, AV and SV; an AV or SV edit replaces only that field; the stored student and status are unchanged |
| CourseDashboard.UpdateRowField | webapp/src/components/CourseDashboard.tsx:44-72 | every row with another id is unchanged, and every row with the id receives the edit |
| CourseDashboard.AttendanceEditDirty | webapp/src/components/CourseDashboard.tsx:54-64 | starting from a clean row, setting one attendance slot makes the row dirty exactly when the value differs from the stored slot |
| CourseDashboard.FindRow | webapp/src/components/CourseDashboard.tsx:81-82 | the first row with the id is found, or nothing when no row has the id |
| CourseDashboard.BeginSave | webapp/src/components/CourseDashboard.tsx:75-92 | rows with the id are marked saving with the message cleared, others are unchanged; the body is the attendance buffer, AV and SV of the first row with the id, and nothing is sent when no row has the id |
| CourseDashboard.SaveFailed | webapp/src/components/CourseDashboard.tsx:94-112 | a failed save keeps the stored student and every buffer, ends saving and sets the error message; other rows are unchanged |
| CourseDashboard.SaveSucceeded | webapp/src/components/CourseDashboard.tsx:115-133 | a successful save takes the server's record as the stored student and the buffers, so the row is clean, not saving and shows the success message; other rows are unchanged |

## Left out

- Storage and the data-layer helpers (`readStudents`, `writeStudents`, `normaliseArray`, `extractUniqueCourses`, `assertCourseLimit`) are not part of this model. They enter as parameters: the stored roster, `normalise`, `extract` and `withinLimit`. No padding or limit behaviour is claimed for them. The 12-course cap appears in the source only as display text.
- The per-id update and delete route (`/api/students/[id]`) is not part of this model. Course-leader field scoping, the participation check and merge semantics are therefore not modelled.
- Sessions and cookies (`getSession`, `session.save`) and the password constants: the session is an input value and the passwords are opaque parameters.
- zod's default messages "Required" and "Array must contain at most 6 element(s)" are those of zod 3. The zod version is not part of this model, and another version could word them differently.
- `uuid()`: the new id is the parameter `freshId`, which must differ from every stored id.
- German collation (`localeCompare(…, "de")`) is an abstract strict total order. A collation that ranks two distinct strings as equal is not modelled.
- JSON parsing of request bodies: payloads are typed records with optional fields. zod's type-mismatch issues for non-string values, and its stripping of unknown keys, are not modelled.
- HTTP framing: statuses are plain numbers in the reply. The uncaught `assertCourseLimit` exception is `LimitExceeded`, with no status.
- `JSON.stringify` is a token list in the record's key order. It relies on the draft and the stored record having the same key order, which holds because the draft starts as a copy of the record.
- Array-slot edits require an index inside the array. The dashboards only pass indices of the array they render; an out-of-range JavaScript assignment, which would leave holes, is not modelled.
- JavaScript strings are UTF-16, while Dafny characters are Unicode scalar values. Lone surrogates, for which `encodeURIComponent` throws, cannot be represented.
- `fetch`, rendering, disabled inputs, `window.confirm` (a cancelled confirmation sends nothing), navigation after login, and the logout buttons are I/O or UI.
- The page components and `/api/courses` are thin wrappers and are not modelled, except the course page's `decodeURIComponent` of its path segment (`Uri.DecodeComponent`).
- Races between concurrent read-then-write requests are concurrency and are not modelled.

=== FILE: admin_dashboard.dfy ===
/** The administrator's dashboard (webapp/src/components/AdminDashboard.tsx):
    the creation draft, the roster list and how server replies change it,
    and the per-row edit buffer with its "changed" and reset logic.
    Rendering, `fetch` and the confirmation dialog are not modelled; each
    server reply is an input of the transition it triggers. */
module AdminDashboard {
  import opened Wrappers
  import opened Text
  import opened Records
  import opened Catalog
  import opened StudentsRoute

  const EmptyField := ""
  const CreatedMessage := "Schüler:in wurde erfolgreich angelegt."
  const CreateFallbackMessage := "Der neue Eintrag konnte nicht gespeichert werden. Bitte prüfen Sie die Angaben."
  const RowSaveFailedMessage := "Speichern fehlgeschlagen."
  /** The number of course and attendance slots a fresh draft shows. */
  const DraftSlots := 6

  /** `createEmptyDraft`: six empty course slots, six empty attendance
      slots, every other field empty. */
  function EmptyDraft(): (d: Profile)
    ensures |d.courses| == DraftSlots && |d.attendance| == DraftSlots
    ensures forall k :: 0 <= k < DraftSlots ==> d.courses[k] == "" && d.attendance[k] == ""
    ensures forall f :: FieldText(d, f) == ""
  {
    var six := [EmptyField, EmptyField, EmptyField, EmptyField, EmptyField, EmptyField];
    Profile("", "", "", "", "", "", six, six, "", "")
  }

  /** The creation request `JSON.stringify(draft)`: every key present. The
      create handler accepts it exactly when the five required fields are
      non-blank and there are at most six slots of each kind, and then
      reads back the draft itself, its text fields trimmed. */
  function DraftPayload(d: Profile): (p: Payload)
    ensures SafeParse(p).Success? <==>
      && !Blank(d.firstName) && !Blank(d.lastName) && !Blank(d.gender)
      && !Blank(d.birthDate) && !Blank(d.school)
      && |d.courses| <= MaxSlots && |d.attendance| <= MaxSlots
    ensures SafeParse(p).Success? ==>
      SafeParse(p).value == Parsed(Trim(d.firstName), Trim(d.lastName), Trim(d.gender),
                                   Trim(d.birthDate), Trim(d.school), Trim(d.desiredCourse),
                                   Some(d.courses), Some(d.attendance), Some(d.av), Some(d.sv))
  {
    var p := Payload(Some(d.firstName), Some(d.lastName), Some(d.gender), Some(d.birthDate),
                     Some(d.school), Some(d.desiredCourse), Some(d.courses), Some(d.attendance),
                     Some(d.av), Some(d.sv));
    assert Issues(p) == [] <==>
      && Trim(d.firstName) != "" && Trim(d.lastName) != "" && Trim(d.gender) != ""
      && Trim(d.birthDate) != "" && Trim(d.school) != ""
      && |d.courses| <= MaxSlots && |d.attendance| <= MaxSlots;
    TrimEmptyIffBlank(d.firstName);
    TrimEmptyIffBlank(d.lastName);
    TrimEmptyIffBlank(d.gender);
    TrimEmptyIffBlank(d.birthDate);
    TrimEmptyIffBlank(d.school);
    SafeParseValues(p);
    p
  }

  /** Submitting the empty draft is refused for the missing first name. */
  lemma EmptyDraftRefused()
    ensures SafeParse(DraftPayload(EmptyDraft())) == Failure(FirstNameMessage)
  {
    var p := DraftPayload(EmptyDraft());
    assert Trim("") == "";
    assert TextIssues(p.firstName, FirstNameMessage) == [FirstNameMessage];
  }

  // ---------------------------------------------------------------------
  // Roster list updates

  /** The list update after a successful save: every entry with the saved
      id becomes the record the server returned. */
  function ReplaceById(r: Roster, id: string, returned: Student): (out: Roster)
    ensures |out| == |r|
    ensures forall i :: 0 <= i < |r| && r[i].id != id ==> out[i] == r[i]
    ensures forall i :: 0 <= i < |r| && r[i].id == id ==> out[i] == returned
  {
    seq(|r|, i requires 0 <= i < |r| => if r[i].id == id then returned else r[i])
  }

  /** `a` is `b` with some entries left out, the rest in order. */
  predicate Subsequence(a: Roster, b: Roster)
    decreases |b|
  {
    if a == [] then true
    else if b == [] then false
    else (a[0] == b[0] && Subsequence(a[1..], b[1..])) || Subsequence(a, b[1..])
  }

  function CountId(r: Roster, id: string): nat
    decreases |r|
  {
    if r == [] then 0 else (if r[0].id == id then 1 else 0) + CountId(r[1..], id)
  }

  /** The list update after a successful delete: exactly the entries with
      that id are gone, and the others keep their order. */
  function RemoveById(r: Roster, id: string): (out: Roster)
    ensures forall s :: s in out <==> s in r && s.id != id
    ensures |out| == |r| - CountId(r, id)
    ensures Subsequence(out, r)
    decreases |r|
  {
    if r == [] then []
    else
      var rest := RemoveById(r[1..], id);
      assert forall s :: s in r <==> s == r[0] || s in r[1..] by {
        assert r == [r[0]] + r[1..];
      }
      if r[0].id == id then
        assert rest == [] || Subsequence(rest, r[1..]);
        rest
      else
        var out := [r[0]] + rest;
        assert out[1..] == rest;
        out
  }

  /** Removing students never adds a course to the catalog. */
  lemma RemoveShrinksCatalog(r: Roster, id: string, x: string)
    ensures Referenced(RemoveById(r, id), x) ==> Referenced(r, x)
  {
  }

  // ---------------------------------------------------------------------
  // Dashboard state

  datatype Feedback = FeedbackError(text: string) | FeedbackSuccess(text: string)

  datatype Dashboard = Dashboard(
    students: Roster,
    draft: Profile,
    submitting: bool,
    feedback: Option<Feedback>)

  function InitialDashboard(initialStudents: Roster): (db: Dashboard)
    ensures db.students == initialStudents && db.draft == EmptyDraft()
    ensures !db.submitting && db.feedback.None?
  {
    Dashboard(initialStudents, EmptyDraft(), false, None)
  }

  /** `updateDraft`: one scalar field of the draft takes the new value. */
  function UpdateDraft(db: Dashboard, f: TextField, v: string): (r: Dashboard)
    ensures FieldText(r.draft, f) == v
    ensures forall g :: g != f ==> FieldText(r.draft, g) == FieldText(db.draft, g)
    ensures forall g :: Slots(r.draft, g) == Slots(db.draft, g)
    ensures r.students == db.students && r.submitting == db.submitting && r.feedback == db.feedback
  {
    db.(draft := WithText(db.draft, f, v))
  }

  /** `updateDraftArray`: only position `index` of the named array changes. */
  function UpdateDraftArray(db: Dashboard, f: SlotField, index: nat, v: string): (r: Dashboard)
    requires index < |Slots(db.draft, f)|
    ensures |Slots(r.draft, f)| == |Slots(db.draft, f)|
    ensures Slots(r.draft, f)[index] == v
    ensures forall k :: 0 <= k < |Slots(db.draft, f)| && k != index ==> Slots(r.draft, f)[k] == Slots(db.draft, f)[k]
    ensures forall g :: g != f ==> Slots(r.draft, g) == Slots(db.draft, g)
    ensures forall g :: FieldText(r.draft, g) == FieldText(db.draft, g)
    ensures r.students == db.students && r.submitting == db.submitting && r.feedback == db.feedback
  {
    db.(draft := WithSlot(db.draft, f, index, v))
  }

  /** Submitting the creation form. */
  function StartCreate(db: Dashboard): (r: Dashboard)
    ensures r.submitting && r.feedback.None?
    ensures r.students == db.students && r.draft == db.draft
  {
    db.(submitting := true, feedback := None)
  }

  /** A created student is appended at the end, and the draft is emptied. */
  function CreateSucceeded(db: Dashboard, created: Student): (r: Dashboard)
    ensures r.students == db.students + [created]
    ensures r.draft == EmptyDraft()
    ensures !r.submitting && r.feedback == Some(FeedbackSuccess(CreatedMessage))
  {
    db.(students := db.students + [created], feedback := Some(FeedbackSuccess(CreatedMessage)),
        draft := EmptyDraft(), submitting := false)
  }

  /** A refused creation keeps the list and the draft and shows the error. */
  function CreateFailed(db: Dashboard, serverError: Option<string>): (r: Dashboard)
    ensures r.students == db.students && r.draft == db.draft
    ensures !r.submitting && r.feedback == Some(FeedbackError(serverError.GetOr(CreateFallbackMessage)))
  {
    db.(feedback := Some(FeedbackError(serverError.GetOr(CreateFallbackMessage))), submitting := false)
  }

  /** A successful save replaces the saved entry with the server's record. */
  function SaveSucceeded(db: Dashboard, id: string, returned: Student): (r: Dashboard)
    ensures |r.students| == |db.students|
    ensures forall i :: 0 <= i < |db.students| ==>
      r.students[i] == (if db.students[i].id == id then returned else db.students[i])
    ensures r.draft == db.draft && r.submitting == db.submitting && r.feedback == db.feedback
  {
    db.(students := ReplaceById(db.students, id, returned))
  }

  /** The delete reply: on success the entries with that id disappear; on
      failure nothing changes. */
  function DeleteFinished(db: Dashboard, id: string, ok: bool): (r: Dashboard)
    ensures !ok ==> r == db
    ensures ok ==> forall s :: s in r.students <==> s in db.students && s.id != id
    ensures ok ==> Subsequence(r.students, db.students)
    ensures ok ==> |r.students| == |db.students| - CountId(db.students, id)
    ensures r.draft == db.draft && r.submitting == db.submitting && r.feedback == db.feedback
  {
    if ok then db.(students := RemoveById(db.students, id)) else db
  }

  /** Saving keeps ids unique when the server returns the record under the
      id that was saved. */
  lemma SaveKeepsIdsUnique(db: Dashboard, id: string, returned: Student)
    requires UniqueIds(db.students) && returned.id == id
    ensures UniqueIds(SaveSucceeded(db, id, returned).students)
  {
  }

  /** After a creation, the course list holds the old courses plus exactly
      those the new student mentions. */
  lemma CreateExtendsCourses(db: Dashboard, created: Student, lt: (string, string) -> bool)
    requires StrictTotalOrder(lt)
    ensures forall x :: x in ComputeCourses(CreateSucceeded(db, created).students, lt) <==>
      x in ComputeCourses(db.students, lt) || Mentions(created, x)
  {
    CatalogOfAppend(db.students, created, lt);
  }

  // ---------------------------------------------------------------------
  // One table row (`StudentRow`)

  datatype Row = Row(student: Student, draft: Student, saving: bool, message: Option<string>)

  /** A row starts with its draft equal to the stored student. */
  function NewRow(student: Student): (row: Row)
    ensures row.student == student && row.draft == student
    ensures !Changed(row) && !row.saving && row.message.None?
  {
    SerializeInjective(student, student);
    Row(student, student, false, None)
  }

  /** `changed`: the draft's serialisation differs from the student's. */
  predicate Changed(row: Row): (b: bool)
    ensures b <==> row.draft != row.student
  {
    SerializeInjective(row.draft, row.student);
    Serialize(row.draft) != Serialize(row.student)
  }

  /** `updateField` on a scalar field of the row's draft. */
  function EditField(row: Row, f: TextField, v: string): (r: Row)
    ensures r.draft.id == row.draft.id
    ensures FieldText(r.draft.profile, f) == v
    ensures forall g :: g != f ==> FieldText(r.draft.profile, g) == FieldText(row.draft.profile, g)
    ensures forall g :: Slots(r.draft.profile, g) == Slots(row.draft.profile, g)
    ensures r.student == row.student && r.saving == row.saving && r.message == row.message
  {
    row.(draft := row.draft.(profile := WithText(row.draft.profile, f, v)))
  }

  /** `updateArrayField`: only position `index` of the named array changes. */
  function EditSlot(row: Row, f: SlotField, index: nat, v: string): (r: Row)
    requires index < |Slots(row.draft.profile, f)|
    ensures r.draft.id == row.draft.id
    ensures |Slots(r.draft.profile, f)| == |Slots(row.draft.profile, f)|
    ensures Slots(r.draft.profile, f)[index] == v
    ensures forall k :: 0 <= k < |Slots(row.draft.profile, f)| && k != index ==>
      Slots(r.draft.profile, f)[k] == Slots(row.draft.profile, f)[k]
    ensures forall g :: g != f ==> Slots(r.draft.profile, g) == Slots(row.draft.profile, g)
    ensures forall g :: FieldText(r.draft.profile, g) == FieldText(row.draft.profile, g)
    ensures r.student == row.student && r.saving == row.saving && r.message == row.message
  {
    row.(draft := row.draft.(profile := WithSlot(row.draft.profile, f, index, v)))
  }

  /** From an unchanged row, a single field edit marks the row changed
      exactly when the new value differs from the stored one. */
  lemma EditFieldChanges(row: Row, f: TextField, v: string)
    requires !Changed(row)
    ensures Changed(EditField(row, f, v)) <==> v != FieldText(row.student.profile, f)
  {
    var r := EditField(row, f, v);
    if v == FieldText(row.student.profile, f) {
      ProfileByFields(r.draft.profile, row.student.profile);
    }
  }

  /** `handleReset`: the draft returns to the stored student. */
  function Reset(row: Row): (r: Row)
    ensures !Changed(r) && r.draft == row.student
    ensures r.message.None? && r.student == row.student && r.saving == row.saving
  {
    SerializeInjective(row.student, row.student);
    row.(draft := row.student, message := None)
  }

  /** Save and reset are offered only for a changed row that is not saving. */
  predicate SaveEnabled(row: Row) {
    Changed(row) && !row.saving
  }

  /** The buttons are enabled exactly for an edited row that is not saving,
      and pressing either one disables both. */
  lemma SaveEnabledIffEdited(row: Row)
    ensures SaveEnabled(row) <==> row.draft != row.student && !row.saving
    ensures !SaveEnabled(StartRowSave(row)) && !SaveEnabled(Reset(row))
  {
  }

  function StartRowSave(row: Row): (r: Row)
    ensures r.saving && r.message.None? && r.draft == row.draft && r.student == row.student
  {
    row.(saving := true, message := None)
  }

  /** The end of `handleSave`: a failure shows an error, success nothing;
      either way the draft is kept. */
  function FinishRowSave(row: Row, ok: bool): (r: Row)
    ensures !r.saving && r.draft == row.draft && r.student == row.student
    ensures r.message == (if ok then row.message else Some(RowSaveFailedMessage))
  {
    if ok then row.(saving := false)
    else row.(message := Some(RowSaveFailedMessage), saving := false)
  }

  /** The effect hook: when the list hands the row a new student, the draft
      follows it, so a saved row is no longer changed. */
  function Receive(row: Row, student: Student): (r: Row)
    ensures r.student == student && r.draft == student && !Changed(r)
    ensures r.saving == row.saving && r.message == row.message
  {
    SerializeInjective(student, student);
    row.(student := student, draft := student)
  }
}

=== FILE: catalog.dfy ===
/** `computeCourses` of the admin dashboard: the distinct, trimmed, non-blank
    course names mentioned anywhere in the roster (every `courses` slot and
    every `desiredCourse`), sorted for display. The source sorts with German
    locale collation; here the comparison is any strict total order `lt` on
    strings, supplied by the caller. */
module Catalog {
  import opened Text
  import opened Records

  ghost predicate StrictTotalOrder(lt: (string, string) -> bool) {
    && (forall x :: !lt(x, x))
    && (forall x, y, z :: lt(x, y) && lt(y, z) ==> lt(x, z))
    && (forall x, y :: x != y ==> lt(x, y) || lt(y, x))
  }

  predicate NoDuplicates(s: seq<string>) {
    forall i, j :: 0 <= i < j < |s| ==> s[i] != s[j]
  }

  predicate Sorted(lt: (string, string) -> bool, s: seq<string>) {
    forall i, j :: 0 <= i < j < |s| ==> lt(s[i], s[j])
  }

  /** Some slot of `names` trims to the non-blank name `x`. */
  predicate Lists(names: seq<string>, x: string) {
    x != "" && exists c :: c in names && Trim(c) == x
  }

  /** Student `s` mentions course `x`, in a slot or as its desired course. */
  predicate Mentions(s: Student, x: string) {
    Lists(s.profile.courses, x) || (x != "" && Trim(s.profile.desiredCourse) == x)
  }

  /** Some student of the roster mentions course `x`. */
  predicate Referenced(r: Roster, x: string) {
    exists s :: s in r && Mentions(s, x)
  }

  /** `if (name.trim()) set.add(name.trim())`, with the set kept as a
      duplicate-free list in insertion order. */
  function AddCourse(acc: seq<string>, name: string): (r: seq<string>)
    requires NoDuplicates(acc)
    ensures NoDuplicates(r)
    ensures forall x :: x in r <==> x in acc || Lists([name], x)
  {
    var t := Trim(name);
    assert forall x :: Lists([name], x) <==> x != "" && x == t;
    if t == "" || t in acc then acc else acc + [t]
  }

  /** The inner `forEach` over one student's course slots. */
  function AddCourses(acc: seq<string>, names: seq<string>): (r: seq<string>)
    requires NoDuplicates(acc)
    ensures NoDuplicates(r)
    ensures forall x :: x in r <==> x in acc || Lists(names, x)
    decreases |names|
  {
    if names == [] then acc
    else
      ListsSplit(names);
      AddCourses(AddCourse(acc, names[0]), names[1..])
  }

  lemma ListsSplit(names: seq<string>)
    requires names != []
    ensures forall x :: Lists(names, x) <==> Lists([names[0]], x) || Lists(names[1..], x)
  {
    assert names == [names[0]] + names[1..];
  }

  lemma ReferencedSplit(r: Roster)
    requires r != []
    ensures forall x :: Referenced(r, x) <==> Mentions(r[0], x) || Referenced(r[1..], x)
  {
    assert r == [r[0]] + r[1..];
  }

  /** The outer `forEach` over the students: slots first, then the desired course. */
  function Collect(acc: seq<string>, r: Roster): (out: seq<string>)
    requires NoDuplicates(acc)
    ensures NoDuplicates(out)
    ensures forall x :: x in out <==> x in acc || Referenced(r, x)
    decreases |r|
  {
    if r == [] then acc
    else
      var p := r[0].profile;
      ReferencedSplit(r);
      assert forall x :: Lists([p.desiredCourse], x) <==> x != "" && Trim(p.desiredCourse) == x;
      Collect(AddCourse(AddCourses(acc, p.courses), p.desiredCourse), r[1..])
  }

  /** Places `x` into a sorted list. */
  function Insert(lt: (string, string) -> bool, x: string, s: seq<string>): (r: seq<string>)
    requires StrictTotalOrder(lt)
    requires Sorted(lt, s) && x !in s
    ensures Sorted(lt, r)
    ensures |r| == |s| + 1
    ensures forall y :: y in r <==> y == x || y in s
    decreases |s|
  {
    if s == [] then [x]
    else if lt(x, s[0]) then [x] + s
    else
      var t := Insert(lt, x, s[1..]);
      assert lt(s[0], x);
      assert forall k :: 0 <= k < |t| ==> t[k] in t;
      [s[0]] + t
  }

  /** `Array.from(set).sort(compare)` on a duplicate-free list. */
  function SortBy(lt: (string, string) -> bool, s: seq<string>): (r: seq<string>)
    requires StrictTotalOrder(lt)
    requires NoDuplicates(s)
    ensures Sorted(lt, r)
    ensures |r| == |s|
    ensures forall y :: y in r <==> y in s
    decreases |s|
  {
    if s == [] then []
    else Insert(lt, s[0], SortBy(lt, s[1..]))
  }

  /** A sorted list under a strict order has no duplicates. */
  lemma SortedHasNoDuplicates(lt: (string, string) -> bool, s: seq<string>)
    requires StrictTotalOrder(lt)
    requires Sorted(lt, s)
    ensures NoDuplicates(s)
  {
  }

  /** The admin dashboard's course list: sorted, duplicate-free, and holding
      exactly the courses the roster references. */
  function ComputeCourses(r: Roster, lt: (string, string) -> bool): (out: seq<string>)
    requires StrictTotalOrder(lt)
    ensures Sorted(lt, out)
    ensures NoDuplicates(out)
    ensures forall x :: x in out <==> Referenced(r, x)
  {
    var out := SortBy(lt, Collect([], r));
    SortedHasNoDuplicates(lt, out);
    out
  }

  /** Two sorted lists with the same elements are the same list. */
  lemma {:induction false} SortedUnique(lt: (string, string) -> bool, a: seq<string>, b: seq<string>)
    requires StrictTotalOrder(lt)
    requires Sorted(lt, a) && Sorted(lt, b)
    requires forall x :: x in a <==> x in b
    ensures a == b
    decreases |a|
  {
    if a == [] {
      assert b == [] by { assert forall k :: 0 <= k < |b| ==> b[k] in b; }
    } else {
      assert a[0] in b;
      assert b[0] in a;
      forall x
        ensures x in a[1..] <==> x in b[1..]
      {
        if x in a[1..] {
          var k :| 1 <= k < |a| && a[k] == x;
          assert lt(a[0], x);
          assert x in b;
        }
        if x in b[1..] {
          var k :| 1 <= k < |b| && b[k] == x;
          assert lt(b[0], x);
          assert x in a;
        }
      }
      SortedUnique(lt, a[1..], b[1..]);
      assert a == [a[0]] + a[1..] && b == [b[0]] + b[1..];
    }
  }

  /** The catalog depends only on which courses the roster references, not
      on which student references them or in what order. */
  lemma CatalogDeterminedByReferences(r1: Roster, r2: Roster, lt: (string, string) -> bool)
    requires StrictTotalOrder(lt)
    requires forall x :: Referenced(r1, x) <==> Referenced(r2, x)
    ensures ComputeCourses(r1, lt) == ComputeCourses(r2, lt)
  {
    SortedUnique(lt, ComputeCourses(r1, lt), ComputeCourses(r2, lt));
  }

  /** Reordering the roster leaves the catalog unchanged. */
  lemma CatalogIgnoresRosterOrder(r1: Roster, r2: Roster, lt: (string, string) -> bool)
    requires StrictTotalOrder(lt)
    requires multiset(r1) == multiset(r2)
    ensures ComputeCourses(r1, lt) == ComputeCourses(r2, lt)
  {
    forall x
      ensures Referenced(r1, x) <==> Referenced(r2, x)
    {
      if Referenced(r1, x) {
        var s :| s in r1 && Mentions(s, x);
        assert s in multiset(r2);
      }
      if Referenced(r2, x) {
        var s :| s in r2 && Mentions(s, x);
        assert s in multiset(r1);
      }
    }
    CatalogDeterminedByReferences(r1, r2, lt);
  }

  /** Appending a student adds exactly the courses that student mentions. */
  lemma CatalogOfAppend(r: Roster, s: Student, lt: (string, string) -> bool)
    requires StrictTotalOrder(lt)
    ensures forall x :: x in ComputeCourses(r + [s], lt) <==> x in ComputeCourses(r, lt) || Mentions(s, x)
  {
    forall x
      ensures Referenced(r + [s], x) <==> Referenced(r, x) || Mentions(s, x)
    {
      if Referenced(r + [s], x) {
        var t :| t in r + [s] && Mentions(t, x);
        assert t in r || t == s;
      }
      if Referenced(r, x) {
        var t :| t in r && Mentions(t, x);
        assert t in r + [s];
      }
      if Mentions(s, x) {
        assert s in r + [s];
      }
    }
  }
}

=== FILE: course_dashboard.dfy ===
/** The course leader's dashboard (webapp/src/components/CourseDashboard.tsx):
    one row per participating student, with edit buffers for the attendance
    slots and the AV/SV fields, a dirty flag, and the save round trip.
    Rendering and `fetch` are not modelled; each server reply is an input
    of the transition it triggers. */
module CourseDashboard {
  import opened Wrappers
  import opened Records

  const SaveFallbackMessage := "Es ist ein Fehler beim Speichern aufgetreten."
  const SavedMessage := "Änderungen gespeichert."

  datatype RowMessage = RowError(text: string) | RowSuccess(text: string)

  /** A row: the stored student, the edit buffers, and the save status. */
  datatype RowState = RowState(
    student: Student,
    attendance: seq<string>,
    av: string,
    sv: string,
    saving: bool,
    message: Option<RowMessage>)

  /** `dirty`: the serialised attendance buffer, AV or SV differs from the
      stored student's. */
  predicate Dirty(row: RowState): (b: bool)
    ensures b <==>
      || row.attendance != row.student.profile.attendance
      || row.av != row.student.profile.av
      || row.sv != row.student.profile.sv
  {
    ArrayTokensInjective(row.attendance, row.student.profile.attendance);
    || ArrayTokens(row.attendance) != ArrayTokens(row.student.profile.attendance)
    || row.av != row.student.profile.av
    || row.sv != row.student.profile.sv
  }

  /** A fresh row for a student: buffers copied from the record. */
  function FreshRow(student: Student): (row: RowState)
    ensures row.student == student && !Dirty(row)
    ensures !row.saving && row.message.None?
  {
    RowState(student, student.profile.attendance, student.profile.av, student.profile.sv, false, None)
  }

  /** The initial `rows`: one clean row per student, in order. */
  function InitialRows(students: Roster): (rows: seq<RowState>)
    ensures |rows| == |students|
    ensures forall i :: 0 <= i < |rows| ==> rows[i] == FreshRow(students[i])
    ensures forall i :: 0 <= i < |rows| ==> rows[i].student == students[i] && !Dirty(rows[i])
  {
    seq(|students|, i requires 0 <= i < |students| => FreshRow(students[i]))
  }

  /** An edit the table's inputs can make. */
  datatype RowEdit = EditAttendance(index: nat, value: string) | EditAv(value: string) | EditSv(value: string)

  /** The edit fits the row: an attendance index is one the row renders. */
  predicate Fits(row: RowState, edit: RowEdit) {
    edit.EditAttendance? ==> edit.index < |row.attendance|
  }

  /** Applies an edit to one row's buffers. */
  function EditRow(row: RowState, edit: RowEdit): (r: RowState)
    requires Fits(row, edit)
    ensures r.student == row.student && r.saving == row.saving && r.message == row.message
    ensures edit.EditAttendance? ==>
      && |r.attendance| == |row.attendance|
      && r.attendance[edit.index] == edit.value
      && (forall k :: 0 <= k < |row.attendance| && k != edit.index ==> r.attendance[k] == row.attendance[k])
      && r.av == row.av && r.sv == row.sv
    ensures edit.EditAv? ==> r.av == edit.value && r.attendance == row.attendance && r.sv == row.sv
    ensures edit.EditSv? ==> r.sv == edit.value && r.attendance == row.attendance && r.av == row.av
  {
    match edit
    case EditAttendance(index, value) => row.(attendance := row.attendance[index := value])
    case EditAv(value) => row.(av := value)
    case EditSv(value) => row.(sv := value)
  }

  /** `updateRowField`: rows with another id are left as they are. */
  function UpdateRowField(rows: seq<RowState>, id: string, edit: RowEdit): (r: seq<RowState>)
    requires forall i :: 0 <= i < |rows| && rows[i].student.id == id ==> Fits(rows[i], edit)
    ensures |r| == |rows|
    ensures forall i :: 0 <= i < |rows| && rows[i].student.id != id ==> r[i] == rows[i]
    ensures forall i :: 0 <= i < |rows| && rows[i].student.id == id ==> r[i] == EditRow(rows[i], edit)
  {
    seq(|rows|, i requires 0 <= i < |rows| =>
      if rows[i].student.id == id then EditRow(rows[i], edit) else rows[i])
  }

  /** On a clean row, setting one attendance slot makes the row dirty
      exactly when the value differs from the stored slot. */
  lemma AttendanceEditDirty(row: RowState, index: nat, value: string)
    requires !Dirty(row) && index < |row.attendance|
    ensures Dirty(EditRow(row, EditAttendance(index, value))) <==>
      value != row.student.profile.attendance[index]
  {
    var r := EditRow(row, EditAttendance(index, value));
    if value == row.student.profile.attendance[index] {
      assert r.attendance == row.student.profile.attendance;
    } else {
      assert r.attendance[index] != row.student.profile.attendance[index];
    }
  }

  // ---------------------------------------------------------------------
  // Saving

  /** The PUT body: only the attendance buffer, AV and SV, never a master
      field. */
  datatype SaveBody = SaveBody(attendance: seq<string>, av: string, sv: string)

  /** `rows.find`: the first row with the id. */
  function FindRow(rows: seq<RowState>, id: string): (r: Option<RowState>)
    ensures r.None? <==> forall i :: 0 <= i < |rows| ==> rows[i].student.id != id
    ensures r.Some? ==>
      exists i :: 0 <= i < |rows| && rows[i] == r.value && rows[i].student.id == id &&
        forall j :: 0 <= j < i ==> rows[j].student.id != id
    decreases |rows|
  {
    if rows == [] then None
    else if rows[0].student.id == id then Some(rows[0])
    else
      var r := FindRow(rows[1..], id);
      assert forall i :: 1 <= i < |rows| ==> rows[i] == rows[1..][i - 1];
      if r.Some? then
        var i :| 0 <= i < |rows[1..]| && rows[1..][i] == r.value && rows[1..][i].student.id == id
                 && forall j :: 0 <= j < i ==> rows[1..][j].student.id != id;
        assert rows[i + 1] == r.value;
        r
      else r
  }

  /** The first step of `handleSave`: rows with the id are marked saving
      and their message cleared; the body comes from the first such row's
      buffers. No row with the id means nothing is sent. */
  function BeginSave(rows: seq<RowState>, id: string): (out: (seq<RowState>, Option<SaveBody>))
    ensures |out.0| == |rows|
    ensures forall i :: 0 <= i < |rows| && rows[i].student.id != id ==> out.0[i] == rows[i]
    ensures forall i :: 0 <= i < |rows| && rows[i].student.id == id ==>
      out.0[i] == rows[i].(saving := true, message := None)
    ensures out.1.None? <==> forall i :: 0 <= i < |rows| ==> rows[i].student.id != id
    ensures out.1.Some? ==>
      exists i :: 0 <= i < |rows| && rows[i].student.id == id &&
        (forall j :: 0 <= j < i ==> rows[j].student.id != id) &&
        out.1.value == SaveBody(rows[i].attendance, rows[i].av, rows[i].sv)
  {
    var marked := seq(|rows|, i requires 0 <= i < |rows| =>
      if rows[i].student.id == id then rows[i].(saving := true, message := None) else rows[i]);
    match FindRow(rows, id)
    case None => (marked, None)
    case Some(row) => (marked, Some(SaveBody(row.attendance, row.av, row.sv)))
  }

  /** A refused save keeps every buffer and only ends `saving` with an
      error message. */
  function SaveFailed(rows: seq<RowState>, id: string, serverError: Option<string>): (r: seq<RowState>)
    ensures |r| == |rows|
    ensures forall i :: 0 <= i < |rows| && rows[i].student.id != id ==> r[i] == rows[i]
    ensures forall i :: 0 <= i < |rows| && rows[i].student.id == id ==>
      && r[i].student == rows[i].student
      && r[i].attendance == rows[i].attendance && r[i].av == rows[i].av && r[i].sv == rows[i].sv
      && !r[i].saving
      && r[i].message == Some(RowError(serverError.GetOr(SaveFallbackMessage)))
  {
    seq(|rows|, i requires 0 <= i < |rows| =>
      if rows[i].student.id == id
      then rows[i].(saving := false, message := Some(RowError(serverError.GetOr(SaveFallbackMessage))))
      else rows[i])
  }

  /** A successful save takes the server's record as the stored student and
      as the new buffers, so the row is clean again. */
  function SaveSucceeded(rows: seq<RowState>, id: string, server: Student): (r: seq<RowState>)
    ensures |r| == |rows|
    ensures forall i :: 0 <= i < |rows| && rows[i].student.id != id ==> r[i] == rows[i]
    ensures forall i :: 0 <= i < |rows| && rows[i].student.id == id ==>
      && r[i].student == server
      && !Dirty(r[i])
      && !r[i].saving
      && r[i].message == Some(RowSuccess(SavedMessage))
  {
    seq(|rows|, i requires 0 <= i < |rows| =>
      if rows[i].student.id == id
      then RowState(server, server.profile.attendance, server.profile.av, server.profile.sv,
                    false, Some(RowSuccess(SavedMessage)))
      else rows[i])
  }
}

=== FILE: login_form.dfy ===
/** The client-side login form (webapp/src/components/LoginForm.tsx): its
    state, the role switch, the course drop-down and the request it sends.
    Rendering, `fetch` and the final navigation are not modelled. */
module LoginForm {
  import opened Wrappers
  import opened Text
  import opened Records
  import opened LoginRoute

  const FallbackError := "Login fehlgeschlagen."

  datatype FormRole = AdminRole | CourseRole

  datatype FormState = FormState(
    role: FormRole,
    password: string,
    course: string,
    error: Option<string>,
    loading: bool)

  function RoleName(r: FormRole): string {
    match r
    case AdminRole => "admin"
    case CourseRole => "course"
  }

  /** `initialCourses[0] ?? ""`. */
  function FirstCourse(initialCourses: seq<string>): (c: string)
    ensures initialCourses == [] ==> c == ""
    ensures initialCourses != [] ==> c == initialCourses[0]
  {
    if |initialCourses| > 0 then initialCourses[0] else ""
  }

  /** The state on first render: administrator role, empty password, the
      first known course preselected. */
  function InitialState(initialCourses: seq<string>): (st: FormState)
    ensures st.role == AdminRole && st.password == "" && st.error.None? && !st.loading
    ensures st.course == FirstCourse(initialCourses)
  {
    FormState(AdminRole, "", FirstCourse(initialCourses), None, false)
  }

  /** `handleRoleChange`. Every switch clears the password and the error.
      Switching to the administrator resets the course to the first known
      one; switching to course leader fills an empty course with the first
      known one when there is one. */
  function ChangeRole(st: FormState, next: FormRole, initialCourses: seq<string>): (r: FormState)
    ensures r.role == next && r.password == "" && r.error.None? && r.loading == st.loading
    ensures next == AdminRole ==> r.course == FirstCourse(initialCourses)
    ensures next == CourseRole && st.course == "" && initialCourses != [] ==> r.course == initialCourses[0]
    ensures next == CourseRole && (st.course != "" || initialCourses == []) ==> r.course == st.course
  {
    var cleared := st.(role := next, password := "", error := None);
    if next == CourseRole && st.course == "" && |initialCourses| > 0 then
      cleared.(course := initialCourses[0])
    else if next == AdminRole then
      cleared.(course := FirstCourse(initialCourses))
    else cleared
  }

  /** `courseOptions`: a non-blank course that is not among the known ones
      is offered first, ahead of them. */
  function CourseOptions(initialCourses: seq<string>, course: string): (options: seq<string>)
    ensures course !in initialCourses && Trim(course) != "" ==> options == [course] + initialCourses
    ensures course in initialCourses || Trim(course) == "" ==> options == initialCourses
  {
    if course !in initialCourses && |Trim(course)| > 0 then [course] + initialCourses
    else initialCourses
  }

  /** The selected course is always offered unless it is blank, and the
      options repeat nothing the known courses do not already repeat. */
  lemma CourseOptionsOfferSelection(initialCourses: seq<string>, course: string)
    ensures Trim(course) != "" ==> course in CourseOptions(initialCourses, course)
    ensures (forall i, j :: 0 <= i < j < |initialCourses| ==> initialCourses[i] != initialCourses[j]) ==>
      var options := CourseOptions(initialCourses, course);
      forall i, j :: 0 <= i < j < |options| ==> options[i] != options[j]
  {
  }

  /** The request body `handleSubmit` sends: always the role, the password
      only when non-empty, the course only for the course-leader role. */
  function Payload(st: FormState): (req: LoginRequest)
    ensures req.role == RoleName(st.role)
    ensures req.password.Some? <==> st.password != ""
    ensures req.password.Some? ==> req.password.value == st.password
    ensures req.course.Some? <==> st.role == CourseRole
    ensures req.course.Some? ==> req.course.value == st.course
  {
    LoginRequest(
      RoleName(st.role),
      if st.password != "" then Some(st.password) else None,
      if st.role == CourseRole then Some(st.course) else None)
  }

  /** The submit button's `disabled` condition. */
  predicate SubmitDisabled(st: FormState): (b: bool)
    ensures b <==> st.loading || Payload(st).course == Some("")
  {
    st.loading || (st.role == CourseRole && st.course == "")
  }

  /** Submitting sets `loading` and clears the error. */
  function StartSubmit(st: FormState): (r: FormState)
    ensures r.loading && r.error.None?
    ensures r.role == st.role && r.password == st.password && r.course == st.course
  {
    st.(loading := true, error := None)
  }

  /** A refused login shows the server's message (or a fallback) and
      re-enables the form; the entered values stay. */
  function SubmitFailed(st: FormState, serverError: Option<string>): (r: FormState)
    ensures !r.loading && r.error == Some(serverError.GetOr(FallbackError))
    ensures r.role == st.role && r.password == st.password && r.course == st.course
  {
    st.(loading := false, error := Some(serverError.GetOr(FallbackError)))
  }

  /** After switching to the course-leader role with known, non-empty
      course names, the form can be submitted. */
  lemma CourseRoleCanSubmit(st: FormState, initialCourses: seq<string>)
    requires !st.loading
    requires forall k :: 0 <= k < |initialCourses| ==> initialCourses[k] != ""
    requires st.course != "" || initialCourses != []
    ensures !SubmitDisabled(ChangeRole(st, CourseRole, initialCourses))
  {
  }

  /** The form never sends a request the login schema rejects, and never
      sends a course with the administrator role. */
  lemma PayloadPassesSchema(st: FormState, session: Session, catalog: seq<string>,
                            adminPassword: string, coursePassword: string)
    ensures KnownRole(Payload(st).role)
    ensures Login(Payload(st), session, catalog, adminPassword, coursePassword).reply
            != LoginRefused(400, InvalidMessage)
    ensures st.role == AdminRole ==> Payload(st).course.None?
  {
  }

  /** A course leader who leaves the password empty is signed in for any
      non-blank course the catalog lists: the empty password is left out of
      the request, and the handler accepts a missing password. */
  lemma EmptyPasswordCourseLogin(st: FormState, session: Session, catalog: seq<string>,
                                 adminPassword: string, coursePassword: string)
    requires st.role == CourseRole && st.password == ""
    requires Trim(st.course) != "" && Trim(st.course) in catalog
    ensures Login(Payload(st), session, catalog, adminPassword, coursePassword)
            == LoginExchange(Session(Some(CourseUser(Trim(st.course)))), Redirect(CourseHome(Trim(st.course))))
  {
  }
}

=== FILE: login_route.dfy ===
/** `POST /api/auth/login` (webapp/src/app/api/auth/login/route.ts): the
    decision that signs in the administrator or a course leader.

    The passwords are opaque values supplied by the caller. `catalog` is the
    course list the data layer derives from the stored roster
    (`extractUniqueCourses`), which is not part of this model. */
module LoginRoute {
  import opened Wrappers
  import opened Text
  import opened Records
  import opened Uri

  const InvalidMessage := "Ungültige Login-Daten."
  const WrongAdminPasswordMessage := "Falsches Passwort für Administratoren."
  const NoCourseMessage := "Bitte einen Kurs auswählen."
  const WrongCoursePasswordMessage := "Falsches Passwort für Kursleitungen."
  const UnknownCourseMessage := "Dieser Kurs ist noch nicht angelegt."

  const AdminHome := "/admin"
  const CoursePrefix := "/courses/"

  /** The request body; an absent key is `None`. */
  datatype LoginRequest = LoginRequest(role: string, password: Option<string>, course: Option<string>)

  datatype LoginReply = Redirect(target: string) | LoginRefused(status: nat, message: string)

  /** The session after the request, and the reply. */
  datatype LoginExchange = LoginExchange(session: Session, reply: LoginReply)

  /** `loginSchema`: the role must be one of the two known roles. */
  predicate KnownRole(role: string) {
    role == "admin" || role == "course"
  }

  /** The page of one course. */
  function CourseHome(course: string): string {
    CoursePrefix + EncodeComponent(course)
  }

  /** A course-leader password passes when it is absent or empty (falsy in
      JavaScript) or equals the course password. */
  predicate CoursePasswordAccepted(password: Option<string>, coursePassword: string) {
    password.None? || password.value == "" || password.value == coursePassword
  }

  /** The trimmed course name of a request. */
  function SelectedCourse(req: LoginRequest): string {
    Trim(req.course.GetOr(""))
  }

  function Login(req: LoginRequest, session: Session, catalog: seq<string>,
                 adminPassword: string, coursePassword: string): (x: LoginExchange)
    // A refused login leaves the session as it was.
    ensures x.reply.LoginRefused? ==> x.session == session
    // Success exactly for the administrator with the right password, or a
    // course leader naming a non-blank course, with an accepted password,
    // that the catalog lists (any course while the catalog is empty).
    ensures x.reply.Redirect? <==>
      || (req.role == "admin" && req.password == Some(adminPassword))
      || (&& req.role == "course"
          && SelectedCourse(req) != ""
          && CoursePasswordAccepted(req.password, coursePassword)
          && (catalog == [] || SelectedCourse(req) in catalog))
    ensures !KnownRole(req.role) ==> x.reply == LoginRefused(400, InvalidMessage)
    // Administrator: exactly the right password succeeds.
    ensures req.role == "admin" ==>
              if req.password == Some(adminPassword)
              then x == LoginExchange(Session(Some(AdminUser)), Redirect(AdminHome))
              else x.reply == LoginRefused(401, WrongAdminPasswordMessage)
    // Course leader: a blank course is refused first, whatever the password.
    ensures req.role == "course" && SelectedCourse(req) == "" ==>
              x.reply == LoginRefused(400, NoCourseMessage)
    ensures req.role == "course" && SelectedCourse(req) != "" &&
            !CoursePasswordAccepted(req.password, coursePassword) ==>
              x.reply == LoginRefused(401, WrongCoursePasswordMessage)
    ensures req.role == "course" && SelectedCourse(req) != "" &&
            CoursePasswordAccepted(req.password, coursePassword) ==>
              if catalog == [] || SelectedCourse(req) in catalog
              then x == LoginExchange(Session(Some(CourseUser(SelectedCourse(req)))),
                                      Redirect(CourseHome(SelectedCourse(req))))
              else x.reply == LoginRefused(404, UnknownCourseMessage)
  {
    if !KnownRole(req.role) then LoginExchange(session, LoginRefused(400, InvalidMessage))
    else if req.role == "admin" then
      if req.password != Some(adminPassword) then
        LoginExchange(session, LoginRefused(401, WrongAdminPasswordMessage))
      else LoginExchange(session.(user := Some(AdminUser)), Redirect(AdminHome))
    else
      var selected := Trim(req.course.GetOr(""));
      if selected == "" then LoginExchange(session, LoginRefused(400, NoCourseMessage))
      else if req.password.Some? && req.password.value != "" && req.password.value != coursePassword then
        LoginExchange(session, LoginRefused(401, WrongCoursePasswordMessage))
      else if |catalog| > 0 && selected !in catalog then
        LoginExchange(session, LoginRefused(404, UnknownCourseMessage))
      else LoginExchange(session.(user := Some(CourseUser(selected))), Redirect(CourseHome(selected)))
  }

  /** A course leader's session holds a trimmed, non-blank course name, and
      the page it is sent to decodes back to exactly that name. */
  lemma CourseRedirectDecodes(req: LoginRequest, session: Session, catalog: seq<string>,
                              adminPassword: string, coursePassword: string)
    requires req.role == "course"
    ensures var x := Login(req, session, catalog, adminPassword, coursePassword);
      x.reply.Redirect? ==>
      && x.session.user.Some? && x.session.user.value.CourseUser?
      && var course := x.session.user.value.course;
      && course != "" && Trimmed(course)
      && |x.reply.target| >= |CoursePrefix|
      && x.reply.target[..|CoursePrefix|] == CoursePrefix
      && DecodeComponent(x.reply.target[|CoursePrefix|..]) == Some(course)
  {
    var course := SelectedCourse(req);
    DecodeEncode(course);
    assert CourseHome(course)[|CoursePrefix|..] == EncodeComponent(course);
  }
}

=== FILE: records.dfy ===
/** The student record shared by the API handlers and the dashboards, the
    session identity, access to a record's fields by name (the source's
    `keyof Student` updates), and the `JSON.stringify` rendering the
    dashboards compare to detect edits. */
module Records {
  import opened Wrappers

  /** Every field of a student except its id; the admin dashboard's draft
      type is exactly this (`Omit<Student, "id">`). */
  datatype Profile = Profile(
    firstName: string,
    lastName: string,
    gender: string,
    birthDate: string,
    school: string,
    desiredCourse: string,
    courses: seq<string>,
    attendance: seq<string>,
    av: string,
    sv: string)

  datatype Student = Student(id: string, profile: Profile)

  /** The persisted student list, in insertion order. */
  type Roster = seq<Student>

  /** The signed-in identity kept in the session cookie: the administrator,
      or the leader of one course. */
  datatype User = AdminUser | CourseUser(course: string)

  /** A session; `user` is absent until a login succeeds. */
  datatype Session = Session(user: Option<User>)

  predicate IsAdmin(session: Session) {
    session.user == Some(AdminUser)
  }

  /** The scalar (string) fields of a profile. */
  datatype TextField = FirstName | LastName | Gender | BirthDate | School | DesiredCourse | Av | Sv

  /** The two slot arrays of a profile. */
  datatype SlotField = Courses | Attendance

  function FieldText(p: Profile, f: TextField): string {
    match f
    case FirstName => p.firstName
    case LastName => p.lastName
    case Gender => p.gender
    case BirthDate => p.birthDate
    case School => p.school
    case DesiredCourse => p.desiredCourse
    case Av => p.av
    case Sv => p.sv
  }

  function Slots(p: Profile, f: SlotField): seq<string> {
    match f
    case Courses => p.courses
    case Attendance => p.attendance
  }

  /** A profile is determined by its named fields. */
  lemma ProfileByFields(p: Profile, q: Profile)
    requires forall f :: FieldText(p, f) == FieldText(q, f)
    requires forall f :: Slots(p, f) == Slots(q, f)
    ensures p == q
  {
    assert FieldText(p, FirstName) == FieldText(q, FirstName) && FieldText(p, LastName) == FieldText(q, LastName);
    assert FieldText(p, Gender) == FieldText(q, Gender) && FieldText(p, BirthDate) == FieldText(q, BirthDate);
    assert FieldText(p, School) == FieldText(q, School) && FieldText(p, DesiredCourse) == FieldText(q, DesiredCourse);
    assert FieldText(p, Av) == FieldText(q, Av) && FieldText(p, Sv) == FieldText(q, Sv);
    assert Slots(p, Courses) == Slots(q, Courses) && Slots(p, Attendance) == Slots(q, Attendance);
  }

  /** `{ ...prev, [field]: value }` for a scalar field: only that field changes. */
  function WithText(p: Profile, f: TextField, v: string): (q: Profile)
    ensures FieldText(q, f) == v
    ensures forall g :: g != f ==> FieldText(q, g) == FieldText(p, g)
    ensures forall g :: Slots(q, g) == Slots(p, g)
  {
    match f
    case FirstName => p.(firstName := v)
    case LastName => p.(lastName := v)
    case Gender => p.(gender := v)
    case BirthDate => p.(birthDate := v)
    case School => p.(school := v)
    case DesiredCourse => p.(desiredCourse := v)
    case Av => p.(av := v)
    case Sv => p.(sv := v)
  }

  /** Copy the named array, assign `clone[index] = value`, and spread the clone
      back: only position `index` of that array changes. The dashboards only
      call this with indices of the array they rendered. */
  function WithSlot(p: Profile, f: SlotField, index: nat, v: string): (q: Profile)
    requires index < |Slots(p, f)|
    ensures |Slots(q, f)| == |Slots(p, f)|
    ensures Slots(q, f)[index] == v
    ensures forall k :: 0 <= k < |Slots(p, f)| && k != index ==> Slots(q, f)[k] == Slots(p, f)[k]
    ensures forall g :: g != f ==> Slots(q, g) == Slots(p, g)
    ensures forall g :: FieldText(q, g) == FieldText(p, g)
  {
    match f
    case Courses => p.(courses := p.courses[index := v])
    case Attendance => p.(attendance := p.attendance[index := v])
  }

  // ---------------------------------------------------------------------
  // JSON.stringify. The dashboards decide "changed" and "dirty" by comparing
  // serialisations. A serialisation is modelled as a token list: each string
  // value is one token (JSON string escaping is injective), each array is
  // bracketed, and keys appear in the record's fixed key order.

  datatype Token = Str(s: string) | Open | Close

  function ArrayTokens(xs: seq<string>): seq<Token> {
    [Open] + ItemTokens(xs) + [Close]
  }

  function ItemTokens(xs: seq<string>): (ts: seq<Token>)
    ensures |ts| == |xs|
    ensures forall k :: 0 <= k < |xs| ==> ts[k] == Str(xs[k])
  {
    if xs == [] then [] else [Str(xs[0])] + ItemTokens(xs[1..])
  }

  /** The keys after the seven scalar fields: both arrays, then AV and SV. */
  function TailTokens(p: Profile): seq<Token> {
    ArrayTokens(p.courses) + ArrayTokens(p.attendance) + [Str(p.av), Str(p.sv)]
  }

  /** `JSON.stringify(student)`. */
  function Serialize(s: Student): (ts: seq<Token>)
    ensures Parse(ts) == Some(s)
  {
    var p := s.profile;
    var head := [Str(s.id), Str(p.firstName), Str(p.lastName), Str(p.gender),
                 Str(p.birthDate), Str(p.school), Str(p.desiredCourse)];
    ParseHead(head, TailTokens(p));
    ParseRestRoundTrip(p);
    head + TailTokens(p)
  }

  /** Reads string tokens up to and including the closing bracket. */
  function ParseItems(ts: seq<Token>): Option<(seq<string>, seq<Token>)>
    decreases |ts|
  {
    if ts == [] then None
    else match ts[0]
      case Close => Some(([], ts[1..]))
      case Open => None
      case Str(x) =>
        match ParseItems(ts[1..])
        case None => None
        case Some(parsed) => Some(([x] + parsed.0, parsed.1))
  }

  /** Reads one bracketed string array; returns it and the tokens after it. */
  function ParseArray(ts: seq<Token>): Option<(seq<string>, seq<Token>)> {
    if ts != [] && ts[0] == Open then ParseItems(ts[1..]) else None
  }

  /** Reads the two arrays and the two trailing strings of a profile. */
  function ParseRest(ts: seq<Token>): Option<(seq<string>, seq<string>, string, string)> {
    match ParseArray(ts)
    case None => None
    case Some(c) =>
      match ParseArray(c.1)
      case None => None
      case Some(a) =>
        if |a.1| == 2 && a.1[0].Str? && a.1[1].Str? then Some((c.0, a.0, a.1[0].s, a.1[1].s))
        else None
  }

  /** Reads a whole serialised student. */
  function Parse(ts: seq<Token>): Option<Student> {
    if |ts| < 7 || !(ts[0].Str? && ts[1].Str? && ts[2].Str? && ts[3].Str?
                     && ts[4].Str? && ts[5].Str? && ts[6].Str?) then None
    else match ParseRest(ts[7..])
      case None => None
      case Some(rest) =>
        Some(Student(ts[0].s, Profile(ts[1].s, ts[2].s, ts[3].s, ts[4].s, ts[5].s, ts[6].s,
                                      rest.0, rest.1, rest.2, rest.3)))
  }

  lemma {:induction false} ParseItemsRoundTrip(xs: seq<string>, rest: seq<Token>)
    ensures ParseItems(ItemTokens(xs) + [Close] + rest) == Some((xs, rest))
    decreases |xs|
  {
    var ts := ItemTokens(xs) + [Close] + rest;
    if xs == [] {
      assert ts == [Close] + rest;
      assert ts[1..] == rest;
    } else {
      assert ts[1..] == ItemTokens(xs[1..]) + [Close] + rest;
      ParseItemsRoundTrip(xs[1..], rest);
      assert [xs[0]] + xs[1..] == xs;
    }
  }

  /** Reading back a serialised array yields the array and the remainder. */
  lemma ParseArrayRoundTrip(xs: seq<string>, rest: seq<Token>)
    ensures ParseArray(ArrayTokens(xs) + rest) == Some((xs, rest))
  {
    var ts := ArrayTokens(xs) + rest;
    assert ts[1..] == ItemTokens(xs) + [Close] + rest;
    ParseItemsRoundTrip(xs, rest);
  }

  /** Reading back the serialised arrays and scalars that follow the seven
      leading scalars of a student. */
  lemma ParseRestRoundTrip(p: Profile)
    ensures ParseRest(TailTokens(p)) == Some((p.courses, p.attendance, p.av, p.sv))
  {
    var tail := ArrayTokens(p.attendance) + [Str(p.av), Str(p.sv)];
    assert ArrayTokens(p.courses) + ArrayTokens(p.attendance) + [Str(p.av), Str(p.sv)]
           == ArrayTokens(p.courses) + tail;
    ParseArrayRoundTrip(p.courses, tail);
    ParseArrayRoundTrip(p.attendance, [Str(p.av), Str(p.sv)]);
  }

  /** Seven leading strings followed by a profile tail. */
  lemma ParseHead(head: seq<Token>, rest: seq<Token>)
    requires |head| == 7 && forall k :: 0 <= k < 7 ==> head[k].Str?
    ensures Parse(head + rest) == match ParseRest(rest)
      case None => None
      case Some(t) =>
        Some(Student(head[0].s, Profile(head[1].s, head[2].s, head[3].s, head[4].s, head[5].s,
                                        head[6].s, t.0, t.1, t.2, t.3)))
  {
    assert (head + rest)[7..] == rest;
  }

  /** Two students serialise alike exactly when they are equal. */
  lemma SerializeInjective(a: Student, b: Student)
    ensures Serialize(a) == Serialize(b) <==> a == b
  {
  }

  /** Two arrays serialise alike exactly when they are equal. */
  lemma ArrayTokensInjective(xs: seq<string>, ys: seq<string>)
    ensures ArrayTokens(xs) == ArrayTokens(ys) <==> xs == ys
  {
    if ArrayTokens(xs) == ArrayTokens(ys) {
      ParseArrayRoundTrip(xs, []);
      ParseArrayRoundTrip(ys, []);
      assert ArrayTokens(xs) + [] == ArrayTokens(xs);
      assert ArrayTokens(ys) + [] == ArrayTokens(ys);
    }
  }
}

=== FILE: students_route.dfy ===
/** The `/api/students` handlers (webapp/src/app/api/students/route.ts):
    listing the roster and creating a student.

    The storage helpers of the data layer are not part of this model and
    enter as parameters: the roster read from storage is `stored`, a
    successful handler reports the roster it writes in `written`,
    `normalise` is `normaliseArray`, `extract` is `extractUniqueCourses`,
    and `withinLimit` holds when `assertCourseLimit` does not throw. The id
    generator is replaced by a caller-supplied `freshId`. */
module StudentsRoute {
  import opened Wrappers
  import opened Text
  import opened Records

  /** Upper bound on `courses` and `attendance` in a creation payload. */
  const MaxSlots := 6

  const ForbiddenMessage := "Keine Berechtigung."
  const NotSignedInMessage := "Nicht angemeldet."
  /** zod's message for a required key that is missing. */
  const RequiredMessage := "Required"
  /** zod's default message for an array above its `max`. */
  const TooManyMessage := "Array must contain at most 6 element(s)"
  const FirstNameMessage := "Vorname ist erforderlich."
  const LastNameMessage := "Nachname ist erforderlich."
  const GenderMessage := "Geschlecht ist erforderlich."
  const BirthDateMessage := "Geburtsdatum ist erforderlich."
  const SchoolMessage := "Schule ist erforderlich."

  /** The request body; an absent key is `None`. */
  datatype Payload = Payload(
    firstName: Option<string>,
    lastName: Option<string>,
    gender: Option<string>,
    birthDate: Option<string>,
    school: Option<string>,
    desiredCourse: Option<string>,
    courses: Option<seq<string>>,
    attendance: Option<seq<string>>,
    av: Option<string>,
    sv: Option<string>)

  /** The output of a successful `baseSchema.safeParse`. */
  datatype Parsed = Parsed(
    firstName: string,
    lastName: string,
    gender: string,
    birthDate: string,
    school: string,
    desiredCourse: string,
    courses: Option<seq<string>>,
    attendance: Option<seq<string>>,
    av: Option<string>,
    sv: Option<string>)

  /** What the handler sends back. `LimitExceeded` is the exception
      `assertCourseLimit` throws, which the handler does not catch. */
  datatype Reply =
    | Created(student: Student)
    | Listed(students: Roster)
    | Refused(status: nat, message: string)
    | LimitExceeded

  /** One request's effect on storage and its reply: whether the roster was
      read, and the roster written, if any. */
  datatype Exchange = Exchange(read: bool, written: Option<Roster>, reply: Reply)

  // ---------------------------------------------------------------------
  // Validation (`baseSchema`). zod checks every key in schema order and
  // collects one issue per failing key; the handler reports the first.

  /** The issue a required, trimmed, non-empty string key raises, if any. */
  function TextIssues(v: Option<string>, message: string): seq<string> {
    match v
    case None => [RequiredMessage]
    case Some(s) => if Trim(s) == "" then [message] else []
  }

  /** The issue an optional array key of at most six elements raises, if any. */
  function ArrayIssues(v: Option<seq<string>>): seq<string> {
    if v.Some? && |v.value| > MaxSlots then [TooManyMessage] else []
  }

  /** Every issue zod reports for `p`, in schema order. `desiredCourse`,
      `av` and `sv` cannot fail once typed as optional strings. */
  function Issues(p: Payload): seq<string> {
    TextIssues(p.firstName, FirstNameMessage)
    + TextIssues(p.lastName, LastNameMessage)
    + TextIssues(p.gender, GenderMessage)
    + TextIssues(p.birthDate, BirthDateMessage)
    + TextIssues(p.school, SchoolMessage)
    + ArrayIssues(p.courses)
    + ArrayIssues(p.attendance)
  }

  function RequiredText(v: Option<string>, message: string): (r: Result<string, string>)
    ensures r.Success? <==> TextIssues(v, message) == []
    ensures r.Failure? ==> r.error == TextIssues(v, message)[0]
    ensures r.Success? ==> r.value == Trim(v.value) && r.value != ""
  {
    match v
    case None => Failure(RequiredMessage)
    case Some(s) =>
      var t := Trim(s);
      if t == "" then Failure(message) else Success(t)
  }

  function BoundedArray(v: Option<seq<string>>): (r: Result<Option<seq<string>>, string>)
    ensures r.Success? <==> ArrayIssues(v) == []
    ensures r.Failure? ==> r.error == ArrayIssues(v)[0]
    ensures r.Success? ==> r.value == v
  {
    if v.Some? && |v.value| > MaxSlots then Failure(TooManyMessage) else Success(v)
  }

  /** `baseSchema.safeParse(body)` followed by taking the first issue's
      message on failure. */
  function SafeParse(p: Payload): (r: Result<Parsed, string>)
    ensures r.Success? <==> Issues(p) == []
    ensures r.Failure? ==> r.error == Issues(p)[0]
  {
    var firstName :- RequiredText(p.firstName, FirstNameMessage);
    var lastName :- RequiredText(p.lastName, LastNameMessage);
    var gender :- RequiredText(p.gender, GenderMessage);
    var birthDate :- RequiredText(p.birthDate, BirthDateMessage);
    var school :- RequiredText(p.school, SchoolMessage);
    var courses :- BoundedArray(p.courses);
    var attendance :- BoundedArray(p.attendance);
    var desiredCourse := match p.desiredCourse case None => "" case Some(d) => Trim(d);
    Success(Parsed(firstName, lastName, gender, birthDate, school, desiredCourse,
                   courses, attendance, p.av, p.sv))
  }

  /** A successful parse stores the five required fields trimmed and
      non-empty, `desiredCourse` trimmed (empty when absent), and the
      optional keys as given, with arrays of at most six elements. */
  lemma SafeParseValues(p: Payload)
    ensures SafeParse(p).Success? ==> var d := SafeParse(p).value;
      && d.firstName == Trim(p.firstName.value) && d.firstName != ""
      && d.lastName == Trim(p.lastName.value) && d.lastName != ""
      && d.gender == Trim(p.gender.value) && d.gender != ""
      && d.birthDate == Trim(p.birthDate.value) && d.birthDate != ""
      && d.school == Trim(p.school.value) && d.school != ""
      && d.desiredCourse == Trim(p.desiredCourse.GetOr(""))
      && d.courses == p.courses && d.attendance == p.attendance
      && (d.courses.Some? ==> |d.courses.value| <= MaxSlots)
      && (d.attendance.Some? ==> |d.attendance.value| <= MaxSlots)
      && d.av == p.av && d.sv == p.sv
  {
    if SafeParse(p).Success? {
      assert RequiredText(p.firstName, FirstNameMessage).Success?;
      assert RequiredText(p.lastName, LastNameMessage).Success?;
      assert RequiredText(p.gender, GenderMessage).Success?;
      assert RequiredText(p.birthDate, BirthDateMessage).Success?;
      assert RequiredText(p.school, SchoolMessage).Success?;
      assert BoundedArray(p.courses).Success?;
      assert BoundedArray(p.attendance).Success?;
    }
  }

  // ---------------------------------------------------------------------
  // Handlers

  /** The record the handler builds from parsed data (route.ts:58-70); the
      desired course is trimmed once more. */
  function NewStudent(id: string, d: Parsed, normalise: Option<seq<string>> -> seq<string>): (s: Student)
    ensures s.id == id
    ensures s.profile.firstName == d.firstName && s.profile.lastName == d.lastName
    ensures s.profile.gender == d.gender && s.profile.birthDate == d.birthDate
    ensures s.profile.school == d.school
    ensures Trimmed(s.profile.desiredCourse)
    ensures Trimmed(d.desiredCourse) ==> s.profile.desiredCourse == d.desiredCourse
    ensures s.profile.courses == normalise(d.courses)
    ensures s.profile.attendance == normalise(d.attendance)
    ensures s.profile.av == d.av.GetOr("") && s.profile.sv == d.sv.GetOr("")
  {
    assert Trimmed(d.desiredCourse) ==> Trim(d.desiredCourse) == d.desiredCourse by {
      if Trimmed(d.desiredCourse) { TrimOfTrimmed(d.desiredCourse); }
    }
    Student(id, Profile(
      d.firstName, d.lastName, d.gender, d.birthDate, d.school,
      Trim(d.desiredCourse),
      normalise(d.courses), normalise(d.attendance),
      d.av.GetOr(""), d.sv.GetOr("")))
  }

  /** `POST /api/students`. Only the administrator may create; the payload is
      validated before storage is read; the new record is appended and the
      course limit is checked on the prospective roster before the single
      write. */
  function Create(session: Session, body: Payload, stored: Roster, freshId: string,
                  normalise: Option<seq<string>> -> seq<string>,
                  extract: Roster -> seq<string>,
                  withinLimit: seq<string> -> bool): (x: Exchange)
    requires forall s | s in stored :: s.id != freshId
    ensures !IsAdmin(session) ==> x == Exchange(false, None, Refused(403, ForbiddenMessage))
    ensures IsAdmin(session) && Issues(body) != [] ==>
              x == Exchange(false, None, Refused(400, Issues(body)[0]))
    ensures x.written.Some? ==>
              && IsAdmin(session) && Issues(body) == []
              && x.reply.Created?
              && x.written.value == stored + [x.reply.student]
              && x.reply.student.id == freshId
              && withinLimit(extract(x.written.value))
    ensures x.read && x.written.None? ==>
              && x.reply == LimitExceeded
              && !withinLimit(extract(stored + [NewStudent(freshId, SafeParse(body).value, normalise)]))
    ensures IsAdmin(session) && Issues(body) == [] ==>
              && x.read
              && (x.written.Some? <==>
                    withinLimit(extract(stored + [NewStudent(freshId, SafeParse(body).value, normalise)])))
    ensures x.reply.Created? <==> x.written.Some?
  {
    if !IsAdmin(session) then Exchange(false, None, Refused(403, ForbiddenMessage))
    else match SafeParse(body)
      case Failure(message) => Exchange(false, None, Refused(400, message))
      case Success(d) =>
        var s := NewStudent(freshId, d, normalise);
        var next := stored + [s];
        if !withinLimit(extract(next)) then Exchange(true, None, LimitExceeded)
        else Exchange(true, Some(next), Created(s))
  }

  /** The created record carries the fresh id and the validated values:
      required fields trimmed and non-empty, `desiredCourse` trimmed or
      empty, `av`/`sv` empty when omitted. */
  lemma CreatedRecord(session: Session, body: Payload, stored: Roster, freshId: string,
                      normalise: Option<seq<string>> -> seq<string>,
                      extract: Roster -> seq<string>,
                      withinLimit: seq<string> -> bool)
    requires forall s | s in stored :: s.id != freshId
    ensures var x := Create(session, body, stored, freshId, normalise, extract, withinLimit);
      x.reply.Created? ==> var p := x.reply.student.profile;
      && p.firstName == Trim(body.firstName.value) && p.firstName != ""
      && p.lastName == Trim(body.lastName.value) && p.lastName != ""
      && p.gender == Trim(body.gender.value) && p.gender != ""
      && p.birthDate == Trim(body.birthDate.value) && p.birthDate != ""
      && p.school == Trim(body.school.value) && p.school != ""
      && p.desiredCourse == Trim(body.desiredCourse.GetOr(""))
      && p.courses == normalise(body.courses)
      && p.attendance == normalise(body.attendance)
      && p.av == body.av.GetOr("") && p.sv == body.sv.GetOr("")
  {
    var x := Create(session, body, stored, freshId, normalise, extract, withinLimit);
    if x.reply.Created? {
      SafeParseValues(body);
      assert IsAdmin(session) && SafeParse(body).Success?;
      assert x.reply.student == NewStudent(freshId, SafeParse(body).value, normalise);
      TrimIdempotent(body.desiredCourse.GetOr(""));
    }
  }

  predicate UniqueIds(r: Roster) {
    forall i, j :: 0 <= i < j < |r| ==> r[i].id != r[j].id
  }

  /** A creation keeps ids unique: the written roster has distinct ids
      whenever the stored one did. */
  lemma CreateKeepsIdsUnique(session: Session, body: Payload, stored: Roster, freshId: string,
                             normalise: Option<seq<string>> -> seq<string>,
                             extract: Roster -> seq<string>,
                             withinLimit: seq<string> -> bool)
    requires forall s | s in stored :: s.id != freshId
    requires UniqueIds(stored)
    ensures var x := Create(session, body, stored, freshId, normalise, extract, withinLimit);
      x.written.Some? ==> UniqueIds(x.written.value)
  {
    var x := Create(session, body, stored, freshId, normalise, extract, withinLimit);
    if x.written.Some? {
      var r := x.written.value;
      forall i, j | 0 <= i < j < |r|
        ensures r[i].id != r[j].id
      {
        if j == |stored| {
          assert r[i] in stored;
        }
      }
    }
  }

  /** `GET /api/students`: any signed-in user receives the whole roster;
      an anonymous caller is refused before storage is read. Nothing is
      ever written. */
  function List(session: Session, stored: Roster): (x: Exchange)
    ensures x.written.None?
    ensures x.read <==> session.user.Some?
    ensures x.reply.Listed? <==> session.user.Some?
    ensures x.reply.Listed? ==> x.reply.students == stored
    ensures !x.reply.Listed? ==> x.reply == Refused(401, NotSignedInMessage)
  {
    if session.user.None? then Exchange(false, None, Refused(401, NotSignedInMessage))
    else Exchange(true, None, Listed(stored))
  }
}

=== FILE: text.dfy ===
/** JavaScript's `String.prototype.trim`, which the source uses (directly and
    through zod's `.trim()`) on every name, course and form value it stores or
    compares. `trim` removes leading and trailing characters of the ECMAScript
    WhiteSpace and LineTerminator classes. */
module Text {

  /** ECMAScript WhiteSpace (TAB, VT, FF, SP, NBSP, ZWNBSP and the Unicode
      "Space_Separator" category) and LineTerminator (LF, CR, LS, PS). */
  predicate IsSpace(c: char) {
    || c == '\t' || c == '\n' || c == '\U{000B}' || c == '\U{000C}' || c == '\r'
    || c == ' ' || c == '\U{00A0}' || c == '\U{1680}'
    || ('\U{2000}' <= c <= '\U{200A}')
    || c == '\U{2028}' || c == '\U{2029}' || c == '\U{202F}' || c == '\U{205F}'
    || c == '\U{3000}' || c == '\U{FEFF}'
  }

  /** Every character is white space; `s.trim()` is then falsy. */
  predicate Blank(s: string) {
    forall i :: 0 <= i < |s| ==> IsSpace(s[i])
  }

  /** Neither end of `s` is white space. */
  predicate Trimmed(s: string) {
    s == [] || (!IsSpace(s[0]) && !IsSpace(s[|s| - 1]))
  }

  /** Every character of `s` in `[lo, hi)` is white space. */
  predicate SpaceBetween(s: string, lo: nat, hi: nat)
    requires lo <= hi <= |s|
  {
    forall k :: lo <= k < hi ==> IsSpace(s[k])
  }

  /** The first position at or after `i` that is not white space (or `|s|`). */
  function SkipLeading(s: string, i: nat): (n: nat)
    requires i <= |s|
    ensures i <= n <= |s|
    ensures SpaceBetween(s, i, n)
    ensures n < |s| ==> !IsSpace(s[n])
    decreases |s| - i
  {
    if i < |s| && IsSpace(s[i]) then SkipLeading(s, i + 1) else i
  }

  /** The position just past the last character before `j` that is not white
      space, looking no further back than `lo` (or `lo` itself). */
  function SkipTrailing(s: string, lo: nat, j: nat): (n: nat)
    requires lo <= j <= |s|
    ensures lo <= n <= j
    ensures SpaceBetween(s, n, j)
    ensures n > lo ==> !IsSpace(s[n - 1])
    decreases j
  {
    if j > lo && IsSpace(s[j - 1]) then SkipTrailing(s, lo, j - 1) else j
  }

  /** `s.trim()`: the contiguous middle of `s` left after removing white
      space at both ends. */
  function Trim(s: string): (r: string)
    ensures Trimmed(r)
    ensures exists i, j :: 0 <= i <= j <= |s| && r == s[i..j] && Blank(s[..i]) && Blank(s[j..])
  {
    var i := SkipLeading(s, 0);
    var j := SkipTrailing(s, i, |s|);
    assert Blank(s[..i]) && Blank(s[j..]);
    s[i..j]
  }

  /** A string that is already trimmed is left as it is. */
  lemma TrimOfTrimmed(s: string)
    requires Trimmed(s)
    ensures Trim(s) == s
  {
  }

  /** Trimming twice is trimming once; the source trims `desiredCourse` a
      second time after zod already did. */
  lemma TrimIdempotent(s: string)
    ensures Trim(Trim(s)) == Trim(s)
  {
    TrimOfTrimmed(Trim(s));
  }

  /** `s.trim()` is empty exactly when `s` consists of white space only. */
  lemma TrimEmptyIffBlank(s: string)
    ensures Trim(s) == [] <==> Blank(s)
  {
    var i := SkipLeading(s, 0);
    var j := SkipTrailing(s, i, |s|);
    if Blank(s) {
      assert i == |s|;
    } else {
      assert i < |s| && j > i;
    }
  }
}

=== FILE: uri.dfy ===
/** `encodeURIComponent`, which the login handler applies to the course name
    in its redirect target, and the matching `decodeURIComponent`, which the
    course page applies to the path segment it receives. A character outside
    the unreserved set is written as its UTF-8 bytes, each as `%` and two
    upper-case hexadecimal digits. */
module Uri {
  import opened Wrappers

  /** Characters `encodeURIComponent` leaves as they are. */
  predicate Unreserved(c: char) {
    ('A' <= c <= 'Z') || ('a' <= c <= 'z') || ('0' <= c <= '9')
    || c in {'-', '_', '.', '!', '~', '*', '\'', '(', ')'}
  }

  predicate IsByte(b: int) {
    0 <= b < 256
  }

  /** The UTF-8 encoding of one Unicode scalar value. */
  function Utf8(c: char): (bytes: seq<int>)
    ensures 1 <= |bytes| <= 4
    ensures forall k :: 0 <= k < |bytes| ==> IsByte(bytes[k])
  {
    var n := c as int;
    if n < 0x80 then [n]
    else if n < 0x800 then [0xC0 + n / 64, 0x80 + n % 64]
    else if n < 0x1_0000 then [0xE0 + n / 4096, 0x80 + (n / 64) % 64, 0x80 + n % 64]
    else [0xF0 + n / 0x4_0000, 0x80 + (n / 4096) % 64, 0x80 + (n / 64) % 64, 0x80 + n % 64]
  }

  predicate UpperHex(c: char) {
    '0' <= c <= '9' || 'A' <= c <= 'F'
  }

  /** The upper-case hexadecimal digit for `d`. */
  function HexDigit(d: int): (r: char)
    requires 0 <= d < 16
    ensures UpperHex(r) && HexValue(r) == Some(d)
  {
    if d < 10 then (48 + d) as char else (55 + d) as char
  }

  /** The value of a hexadecimal digit of either case. */
  function HexValue(c: char): Option<int> {
    if '0' <= c <= '9' then Some(c as int - 48)
    else if 'A' <= c <= 'F' then Some(c as int - 55)
    else if 'a' <= c <= 'f' then Some(c as int - 87)
    else None
  }

  /** `%` and the byte's two upper-case hexadecimal digits, high first. */
  function Escape(b: int): (e: string)
    requires IsByte(b)
    ensures |e| == 3 && e[0] == '%'
    ensures HexValue(e[1]) == Some(b / 16) && HexValue(e[2]) == Some(b % 16)
    ensures UpperHex(e[1]) && UpperHex(e[2])
  {
    ['%', HexDigit(b / 16), HexDigit(b % 16)]
  }

  /** One escape per byte, in order. */
  function EscapeAll(bytes: seq<int>): (e: string)
    requires forall k :: 0 <= k < |bytes| ==> IsByte(bytes[k])
    ensures |e| == 3 * |bytes|
    decreases |bytes|
  {
    if bytes == [] then [] else Escape(bytes[0]) + EscapeAll(bytes[1..])
  }

  function EncodeChar(c: char): string {
    if Unreserved(c) then [c] else EscapeAll(Utf8(c))
  }

  /** `encodeURIComponent(s)`: text of unreserved characters is kept as it
      is, and the result uses only unreserved characters, `%` and digits. */
  function EncodeComponent(s: string): (e: string)
    ensures forall k :: 0 <= k < |e| ==> Unreserved(e[k]) || e[k] == '%' || HexValue(e[k]).Some?
    ensures (forall k :: 0 <= k < |s| ==> Unreserved(s[k])) ==> e == s
    decreases |s|
  {
    if s == [] then []
    else
      var head := EncodeChar(s[0]);
      EncodedCharAlphabet(s[0]);
      assert (forall k :: 0 <= k < |s| ==> Unreserved(s[k])) ==> head + EncodeComponent(s[1..]) == s by {
        if forall k :: 0 <= k < |s| ==> Unreserved(s[k]) {
          assert forall k :: 0 <= k < |s[1..]| ==> Unreserved(s[1..][k]);
          assert s == [s[0]] + s[1..];
        }
      }
      head + EncodeComponent(s[1..])
  }

  /** Encoding works character by character: the encoding of a
      concatenation is the concatenation of the encodings. */
  lemma {:induction false} EncodeAppend(s: string, t: string)
    ensures EncodeComponent(s + t) == EncodeComponent(s) + EncodeComponent(t)
    decreases |s|
  {
    if s != [] {
      var st := s + t;
      assert st[0] == s[0] && st[1..] == s[1..] + t;
      assert EncodeComponent(st) == EncodeChar(s[0]) + EncodeComponent(s[1..] + t);
      EncodeAppend(s[1..], t);
      assert EncodeComponent(s) == EncodeChar(s[0]) + EncodeComponent(s[1..]);
    } else {
      assert s + t == t;
    }
  }

  /** A single character: an unreserved one is kept, any other one becomes
      its UTF-8 bytes, each written as `%` and two upper-case hexadecimal
      digits. */
  lemma EncodeOneChar(c: char)
    ensures Unreserved(c) ==> EncodeComponent([c]) == [c]
    ensures !Unreserved(c) ==> EncodeComponent([c]) == EscapeAll(Utf8(c))
    ensures !Unreserved(c) ==> forall k :: 0 <= k < |Utf8(c)| ==>
      EncodeComponent([c])[3 * k .. 3 * k + 3] == Escape(Utf8(c)[k])
  {
    assert [c][1..] == [];
    if !Unreserved(c) {
      EscapeAllBlocks(Utf8(c));
    }
  }

  /** The `k`-th three-character block of `EscapeAll(bytes)` escapes the
      `k`-th byte. */
  lemma {:induction false} EscapeAllBlocks(bytes: seq<int>)
    requires forall k :: 0 <= k < |bytes| ==> IsByte(bytes[k])
    ensures forall k :: 0 <= k < |bytes| ==> EscapeAll(bytes)[3 * k .. 3 * k + 3] == Escape(bytes[k])
    decreases |bytes|
  {
    if bytes != [] {
      EscapeAllBlocks(bytes[1..]);
      var e := EscapeAll(bytes);
      var tail := EscapeAll(bytes[1..]);
      assert e == Escape(bytes[0]) + tail;
      forall k | 0 <= k < |bytes|
        ensures e[3 * k .. 3 * k + 3] == Escape(bytes[k])
      {
        if k > 0 {
          assert e[3 * k .. 3 * k + 3] == tail[3 * (k - 1) .. 3 * (k - 1) + 3];
          assert bytes[k] == bytes[1..][k - 1];
        }
      }
    }
  }

  /** A space becomes `%20`. */
  lemma EncodeSpace()
    ensures EncodeComponent(" ") == "%20"
  {
    EncodeOneChar(' ');
    assert Utf8(' ') == [0x20];
    assert EscapeAll([0x20]) == Escape(0x20) + EscapeAll([]);
  }

  /** A course name made of letters, such as "Mathe", is kept as it is. */
  lemma EncodeWord()
    ensures EncodeComponent("Mathe") == "Mathe"
  {
    var m := "Mathe";
    assert Unreserved(m[0]) && Unreserved(m[1]) && Unreserved(m[2]);
    assert Unreserved(m[3]) && Unreserved(m[4]);
  }

  /** "ä" becomes its two UTF-8 bytes, `%C3%A4`. */
  lemma EncodeUmlaut()
    ensures EncodeComponent("\U{00E4}") == "%C3%A4"
  {
    EncodeOneChar('\U{00E4}');
    assert Utf8('\U{00E4}') == [0xC3, 0xA4];
    var e := EscapeAll([0xC3, 0xA4]);
    assert [0xC3, 0xA4][1..] == [0xA4];
    assert EscapeAll([0xA4]) == Escape(0xA4) + EscapeAll([]);
    assert e == Escape(0xC3) + Escape(0xA4);
    assert Escape(0xC3) == "%C3";
    assert Escape(0xA4) == "%A4";
  }

  lemma EncodedCharAlphabet(c: char)
    ensures forall k :: 0 <= k < |EncodeChar(c)| ==>
      Unreserved(EncodeChar(c)[k]) || EncodeChar(c)[k] == '%' || HexValue(EncodeChar(c)[k]).Some?
  {
    if !Unreserved(c) {
      EscapedAlphabet(Utf8(c));
    }
  }

  lemma {:induction false} EscapedAlphabet(bytes: seq<int>)
    requires forall k :: 0 <= k < |bytes| ==> IsByte(bytes[k])
    ensures forall k :: 0 <= k < |EscapeAll(bytes)| ==>
      EscapeAll(bytes)[k] == '%' || HexValue(EscapeAll(bytes)[k]).Some?
    decreases |bytes|
  {
    if bytes != [] {
      EscapedAlphabet(bytes[1..]);
      var b := bytes[0];
      assert HexValue(HexDigit(b / 16)).Some? && HexValue(HexDigit(b % 16)).Some?;
      var e := EscapeAll(bytes);
      assert e == Escape(b) + EscapeAll(bytes[1..]);
      forall k | 3 <= k < |e|
        ensures e[k] == EscapeAll(bytes[1..])[k - 3]
      {
      }
    }
  }

  // ---------------------------------------------------------------------
  // Decoding

  /** Reads one `%XY` escape at the front of `t`. */
  function ParseByte(t: string): Option<int> {
    if |t| >= 3 && t[0] == '%' && HexValue(t[1]).Some? && HexValue(t[2]).Some? then
      Some(16 * HexValue(t[1]).value + HexValue(t[2]).value)
    else None
  }

  /** Reads `n` consecutive escapes. */
  function ParseBytes(t: string, n: nat): Option<seq<int>>
    decreases n
  {
    if n == 0 then Some([])
    else match ParseByte(t)
      case None => None
      case Some(b) =>
        match ParseBytes(t[3..], n - 1)
        case None => None
        case Some(bs) => Some([b] + bs)
  }

  /** The length of the UTF-8 sequence a lead byte announces; 0 if the byte
      cannot start a sequence. */
  function SequenceLength(b: int): nat {
    if 0 <= b < 0x80 then 1
    else if 0xC0 <= b < 0xE0 then 2
    else if 0xE0 <= b < 0xF0 then 3
    else if 0xF0 <= b < 0xF8 then 4
    else 0
  }

  predicate Continuation(b: int) {
    0x80 <= b < 0xC0
  }

  predicate IsScalar(v: int) {
    (0 <= v < 0xD800) || (0xE000 <= v < 0x11_0000)
  }

  /** The scalar value a complete UTF-8 sequence encodes, rejecting
      overlong forms, surrogates and values beyond U+10FFFF. */
  function DecodeUtf8(bs: seq<int>): Option<char> {
    if |bs| == 1 && 0 <= bs[0] < 0x80 then Some(bs[0] as char)
    else if |bs| == 2 && 0xC0 <= bs[0] < 0xE0 && Continuation(bs[1]) then
      var v := (bs[0] - 0xC0) * 64 + (bs[1] - 0x80);
      if v >= 0x80 then Some(v as char) else None
    else if |bs| == 3 && 0xE0 <= bs[0] < 0xF0 && Continuation(bs[1]) && Continuation(bs[2]) then
      var v := (bs[0] - 0xE0) * 4096 + (bs[1] - 0x80) * 64 + (bs[2] - 0x80);
      if v >= 0x800 && IsScalar(v) then Some(v as char) else None
    else if |bs| == 4 && 0xF0 <= bs[0] < 0xF8 && Continuation(bs[1]) && Continuation(bs[2]) && Continuation(bs[3]) then
      var v := (bs[0] - 0xF0) * 0x4_0000 + (bs[1] - 0x80) * 4096 + (bs[2] - 0x80) * 64 + (bs[3] - 0x80);
      if 0x1_0000 <= v < 0x11_0000 then Some(v as char) else None
    else None
  }

  /** Reads one character at the front of a non-empty encoded string: a
      literal, or a complete escaped UTF-8 sequence. */
  function DecodeStep(t: string): (r: Option<(char, nat)>)
    requires t != []
    ensures r.Some? ==> 1 <= r.value.1 <= |t|
  {
    if t[0] != '%' then Some((t[0], 1))
    else match ParseByte(t)
      case None => None
      case Some(b0) =>
        var n := SequenceLength(b0);
        if n == 0 || |t| < 3 * n then None
        else match ParseBytes(t, n)
          case None => None
          case Some(bs) =>
            match DecodeUtf8(bs)
            case None => None
            case Some(c) => Some((c, 3 * n))
  }

  /** `decodeURIComponent(t)`; `None` where it throws a URIError. Text
      without `%` is returned as it is, and decoding never lengthens. */
  function DecodeComponent(t: string): (r: Option<string>)
    ensures (forall i :: 0 <= i < |t| ==> t[i] != '%') ==> r == Some(t)
    ensures r.Some? ==> |r.value| <= |t|
    decreases |t|
  {
    if t == [] then Some([])
    else match DecodeStep(t)
      case None => None
      case Some(step) =>
        assert step.1 == 1 ==> t[step.1..] == t[1..];
        match DecodeComponent(t[step.1..])
        case None => None
        case Some(rest) =>
          assert (forall i :: 0 <= i < |t| ==> t[i] != '%') ==> [step.0] + rest == t by {
            if forall i :: 0 <= i < |t| ==> t[i] != '%' {
              assert forall i :: 0 <= i < |t[1..]| ==> t[1..][i] != '%';
              assert t == [t[0]] + t[1..];
            }
          }
          Some([step.0] + rest)
  }

  /** `%` at position `i` of `t` starts a complete escape. */
  predicate EscapeAt(t: string, i: nat) {
    i + 2 < |t| && HexValue(t[i + 1]).Some? && HexValue(t[i + 2]).Some?
  }

  /** Within a run of `n` escapes every `%` starts a complete escape. */
  lemma {:induction false} EscapesInRun(t: string, n: nat, i: nat)
    requires ParseBytes(t, n).Some? && i < 3 * n && i < |t| && t[i] == '%'
    ensures EscapeAt(t, i)
    decreases n
  {
    assert ParseByte(t).Some?;
    if i >= 3 {
      EscapesInRun(t[3..], n - 1, i - 3);
      assert t[3..][i - 3] == t[i];
    }
  }

  /** `decodeURIComponent` throws when the text holds a `%` that is not
      followed by two hexadecimal digits, wherever it stands. */
  lemma {:induction false} DecodeRejectsBadEscape(t: string, i: nat)
    requires i < |t| && t[i] == '%' && !EscapeAt(t, i)
    ensures DecodeComponent(t) == None
    decreases |t|
  {
    match DecodeStep(t)
    case None =>
    case Some(step) =>
      var n := step.1;
      if t[0] == '%' {
        var b0 := ParseByte(t).value;
        var len := SequenceLength(b0);
        assert n == 3 * len;
        if i < n {
          EscapesInRun(t, len, i);
        }
      }
      assert n <= i;
      assert t[n..][i - n] == t[i];
      assert EscapeAt(t, i) <==> EscapeAt(t[n..], i - n);
      DecodeRejectsBadEscape(t[n..], i - n);
  }

  /** It throws on a continuation byte in lead position, on a sequence cut
      off before its announced length, and on a bad continuation byte. */
  lemma DecodeRejectsBadSequence()
    ensures DecodeComponent("%80") == None
    ensures DecodeComponent("%C3") == None
    ensures DecodeComponent("%C3%28") == None
  {
    assert HexValue('8') == Some(8) && HexValue('0') == Some(0);
    assert HexValue('C') == Some(12) && HexValue('3') == Some(3);
    assert HexValue('2') == Some(2);
    assert ParseByte("%80") == Some(0x80);
    assert ParseByte("%C3") == Some(0xC3);
    var t := "%C3%28";
    assert ParseByte(t) == Some(0xC3);
    assert t[3..] == "%28";
    ByteRunTwo(t, 0xC3, 0x28);
  }

  /** A single escape read as a run of one byte. */
  lemma ByteRun(t: string, b: int)
    requires ParseByte(t) == Some(b)
    ensures ParseBytes(t, 1) == Some([b])
  {
    assert ParseBytes(t[3..], 0) == Some([]);
    assert [b] + [] == [b];
  }

  /** Two escapes read as a run of two bytes. */
  lemma ByteRunTwo(t: string, b0: int, b1: int)
    requires ParseByte(t) == Some(b0)
    requires |t| >= 3 && ParseByte(t[3..]) == Some(b1)
    ensures ParseBytes(t, 2) == Some([b0, b1])
  {
    ByteRun(t[3..], b1);
    assert [b0] + [b1] == [b0, b1];
  }

  /** One more escape in front of a run of escapes. */
  lemma ByteRunCons(t: string, b: int, bs: seq<int>)
    requires ParseByte(t) == Some(b)
    requires |t| >= 3 && ParseBytes(t[3..], |bs|) == Some(bs)
    ensures ParseBytes(t, |bs| + 1) == Some([b] + bs)
  {
  }

  /** A complete run of escapes whose bytes are not valid UTF-8 makes the
      whole decode throw. */
  lemma DecodeRejectsRun(t: string, bs: seq<int>)
    requires bs != [] && ParseByte(t) == Some(bs[0])
    requires SequenceLength(bs[0]) == |bs| && |t| >= 3 * |bs|
    requires ParseBytes(t, |bs|) == Some(bs) && DecodeUtf8(bs) == None
    ensures DecodeComponent(t) == None
  {
  }

  /** It throws on an overlong form. */
  lemma DecodeRejectsOverlong()
    ensures DecodeComponent("%C0%80") == None
  {
    var t := "%C0%80";
    assert HexValue('C') == Some(12) && HexValue('0') == Some(0) && HexValue('8') == Some(8);
    assert ParseByte(t) == Some(0xC0);
    assert t[3..] == "%80";
    assert ParseByte(t[3..]) == Some(0x80);
    ByteRunTwo(t, 0xC0, 0x80);
    DecodeRejectsRun(t, [0xC0, 0x80]);
  }

  /** It throws on an encoded surrogate. */
  lemma DecodeRejectsSurrogate()
    ensures DecodeComponent("%ED%A0%80") == None
  {
    var t := "%ED%A0%80";
    assert HexValue('E') == Some(14) && HexValue('D') == Some(13) && HexValue('A') == Some(10);
    assert HexValue('0') == Some(0) && HexValue('8') == Some(8);
    assert ParseByte(t) == Some(0xED);
    var u := t[3..];
    assert u == "%A0%80" && u[3..] == "%80";
    assert ParseByte(u) == Some(0xA0) && ParseByte(u[3..]) == Some(0x80);
    ByteRunTwo(u, 0xA0, 0x80);
    ByteRunCons(t, 0xED, [0xA0, 0x80]);
    assert [0xED] + [0xA0, 0x80] == [0xED, 0xA0, 0x80];
    DecodeRejectsRun(t, [0xED, 0xA0, 0x80]);
  }

  /** It throws on a value above U+10FFFF. */
  lemma DecodeRejectsBeyondUnicode()
    ensures DecodeComponent("%F4%90%80%80") == None
  {
    var t := "%F4%90%80%80";
    assert HexValue('F') == Some(15) && HexValue('4') == Some(4) && HexValue('9') == Some(9);
    assert HexValue('0') == Some(0) && HexValue('8') == Some(8);
    assert ParseByte(t) == Some(0xF4);
    var u := t[3..];
    assert u == "%90%80%80";
    assert ParseByte(u) == Some(0x90);
    var v := u[3..];
    assert v == "%80%80" && v[3..] == "%80";
    assert ParseByte(v) == Some(0x80) && ParseByte(v[3..]) == Some(0x80);
    ByteRunTwo(v, 0x80, 0x80);
    ByteRunCons(u, 0x90, [0x80, 0x80]);
    assert [0x90] + [0x80, 0x80] == [0x90, 0x80, 0x80];
    ByteRunCons(t, 0xF4, [0x90, 0x80, 0x80]);
    assert [0xF4] + [0x90, 0x80, 0x80] == [0xF4, 0x90, 0x80, 0x80];
    DecodeRejectsRun(t, [0xF4, 0x90, 0x80, 0x80]);
  }

  /** A well-formed two-byte escape decodes to its character. */
  lemma DecodeTwoByteEscape()
    ensures DecodeComponent("%C3%A4") == Some("\U{00E4}")
  {
    var t := "%C3%A4";
    assert HexValue('C') == Some(12) && HexValue('3') == Some(3);
    assert HexValue('A') == Some(10) && HexValue('4') == Some(4);
    assert ParseByte(t) == Some(0xC3);
    assert t[3..] == "%A4";
    assert ParseByte(t[3..]) == Some(0xA4);
    ByteRunTwo(t, 0xC3, 0xA4);
    assert DecodeUtf8([0xC3, 0xA4]) == Some('\U{00E4}');
    assert DecodeStep(t) == Some(('\U{00E4}', 6));
    assert t[6..] == [];
    assert DecodeComponent(t[6..]) == Some([]);
    assert ['\U{00E4}'] + [] == "\U{00E4}";
  }

  // ---------------------------------------------------------------------
  // Round trip

  lemma HexRoundTrip(d: int)
    requires 0 <= d < 16
    ensures HexValue(HexDigit(d)) == Some(d)
  {
  }

  lemma ParseEscape(b: int, rest: string)
    requires IsByte(b)
    ensures ParseByte(Escape(b) + rest) == Some(b)
    ensures (Escape(b) + rest)[3..] == rest
  {
    var t := Escape(b) + rest;
    assert t[1] == Escape(b)[1] && t[2] == Escape(b)[2];
  }

  lemma {:induction false} ParseEscapes(bytes: seq<int>, rest: string)
    requires forall k :: 0 <= k < |bytes| ==> IsByte(bytes[k])
    ensures ParseBytes(EscapeAll(bytes) + rest, |bytes|) == Some(bytes)
    decreases |bytes|
  {
    if bytes != [] {
      var t := EscapeAll(bytes) + rest;
      var tail := EscapeAll(bytes[1..]) + rest;
      assert t == Escape(bytes[0]) + tail;
      ParseEscape(bytes[0], tail);
      ParseEscapes(bytes[1..], rest);
      assert ParseBytes(t, |bytes|) == Some([bytes[0]] + bytes[1..]);
      assert [bytes[0]] + bytes[1..] == bytes;
    }
  }

  /** Splitting a value into 6-bit groups and joining them again. */
  lemma Digits64(n: int)
    requires 0 <= n
    ensures n == (n / 64) * 64 + n % 64
    ensures n / 64 == (n / 4096) * 64 + (n / 64) % 64
    ensures n / 4096 == (n / 0x4_0000) * 64 + (n / 4096) % 64
  {
  }

  lemma Utf8RoundTripTwo(c: char)
    requires 0x80 <= c as int < 0x800
    ensures SequenceLength(Utf8(c)[0]) == 2
    ensures DecodeUtf8(Utf8(c)) == Some(c)
  {
    Digits64(c as int);
  }

  lemma Utf8RoundTripThree(c: char)
    requires 0x800 <= c as int < 0x1_0000
    ensures SequenceLength(Utf8(c)[0]) == 3
    ensures DecodeUtf8(Utf8(c)) == Some(c)
  {
    var n := c as int;
    Digits64(n);
    assert (n / 4096) * 4096 + ((n / 64) % 64) * 64 + n % 64 == n;
  }

  lemma Utf8RoundTripFour(c: char)
    requires 0x1_0000 <= c as int
    ensures SequenceLength(Utf8(c)[0]) == 4
    ensures DecodeUtf8(Utf8(c)) == Some(c)
  {
    var n := c as int;
    Digits64(n);
    assert (n / 0x4_0000) * 0x4_0000 + ((n / 4096) % 64) * 4096 + ((n / 64) % 64) * 64 + n % 64 == n;
  }

  /** Decoding the UTF-8 encoding of a character gives the character back,
      and the lead byte announces the encoding's length. */
  lemma Utf8RoundTrip(c: char)
    ensures SequenceLength(Utf8(c)[0]) == |Utf8(c)|
    ensures DecodeUtf8(Utf8(c)) == Some(c)
  {
    var n := c as int;
    if n < 0x80 {
    } else if n < 0x800 {
      Utf8RoundTripTwo(c);
    } else if n < 0x1_0000 {
      Utf8RoundTripThree(c);
    } else {
      Utf8RoundTripFour(c);
    }
  }

  lemma DecodeStepOfEscapes(t: string, bytes: seq<int>, c: char)
    requires 1 <= |bytes| <= 4 && |t| >= 3 * |bytes|
    requires t[0] == '%' && ParseByte(t) == Some(bytes[0])
    requires SequenceLength(bytes[0]) == |bytes|
    requires ParseBytes(t, |bytes|) == Some(bytes)
    requires DecodeUtf8(bytes) == Some(c)
    ensures DecodeStep(t) == Some((c, 3 * |bytes|))
  {
  }

  lemma DecodeStepOfEncodedChar(c: char, rest: string)
    ensures DecodeStep(EncodeChar(c) + rest) == Some((c, |EncodeChar(c)|))
  {
    var t := EncodeChar(c) + rest;
    if Unreserved(c) {
      assert t[0] == c && c != '%';
    } else {
      var bytes := Utf8(c);
      assert t == EscapeAll(bytes) + rest;
      Utf8RoundTrip(c);
      ParseEscapes(bytes, rest);
      assert EscapeAll(bytes) == Escape(bytes[0]) + EscapeAll(bytes[1..]);
      ParseEscape(bytes[0], EscapeAll(bytes[1..]) + rest);
      DecodeStepOfEscapes(t, bytes, c);
    }
  }

  /** Decoding an encoded string gives the string back, so the course page
      recovers exactly the course name the redirect carried. */
  lemma {:induction false} DecodeEncode(s: string)
    ensures DecodeComponent(EncodeComponent(s)) == Some(s)
    decreases |s|
  {
    if s != [] {
      var e := EncodeComponent(s);
      var head := EncodeChar(s[0]);
      assert e == head + EncodeComponent(s[1..]);
      DecodeStepOfEncodedChar(s[0], EncodeComponent(s[1..]));
      assert e[|head|..] == EncodeComponent(s[1..]);
      DecodeEncode(s[1..]);
      assert [s[0]] + s[1..] == s;
    }
  }

  /** Distinct course names give distinct redirect targets. */
  lemma EncodeInjective(s: string, t: string)
    ensures EncodeComponent(s) == EncodeComponent(t) <==> s == t
  {
    DecodeEncode(s);
    DecodeEncode(t);
  }
}

=== FILE: wrappers.dfy ===
/** Optional values and success/failure results used throughout the model.
    `Option` stands for a JavaScript value that may be `undefined`;
    `Result` for a step that either yields a value or reports an error. */
module Wrappers {

  datatype Option<+T> = None | Some(value: T) {

    /** The `??` operator of the source: the value, or `default` when absent. */
    function GetOr(default: T): T {
      match this
      case Some(v) => v
      case None => default
    }
  }

  datatype Result<+R, +E> = Success(value: R) | Failure(error: E) {

    predicate IsFailure() {
      Failure?
    }

    function PropagateFailure<U>(): Result<U, E>
      requires Failure?
    {
      Failure(error)
    }

    function Extract(): R
      requires Success?
    {
      value
    }
  }
}
